=== FILE: README.md ===
# aceshifter reconciliation policy, in Dafny

This project models the reconciliation policy of aceshifter, an operator that follows
OpenShift's per-namespace UID ranges and writes them into rendered configuration. The
model covers four parts:

- **Identity-range resolver** (`tracker.GetUid`). It reads the `openshift.io/sa.scc.uid-range`
  and `openshift.io/sa.scc.supplemental-groups` annotations of a namespace. It checks that
  the two agree and parses `<start>/<range>` into two int64 values. Otherwise it returns the
  sentinel `(-1, -1)`, with or without an error.
- **Feature reconciler.** It renders a Feature's template with the start UID of the
  Feature's chart namespace. It stores the result under `<feature>.yaml` in the shared
  ConfigMap `kubeops/ace-openshift-scc`. Its Namespace watch re-enqueues the Features
  charted into an annotated namespace.
- **HelmRelease reconciler.** It picks a template: the same-named Feature's template, or
  `ace.yaml` for the release `ace`. It creates the target namespace if that namespace is
  missing, then stores the rendering under `<release>.yaml`. Its Namespace watch
  re-enqueues the releases that target a namespace.
- **Namespace reconciler.** It rebuilds the ClusterClaim `openshift.ace.info`. The claim
  holds the serialised map from every Feature's chart namespace to that namespace's start
  UID.

The cluster is an immutable `Kube.Cluster` value with these parts:

- namespaces with their annotations;
- the Feature and HelmRelease lists;
- the optional shared ConfigMap;
- the optional claim;
- a map of injected API failures (`faults`).

`Get`, `List`, `Create` and controller-runtime's `CreateOrPatch` are pure functions over
that value. Each reconcile step is a pure function. It returns the new cluster, the error
handed back to the work queue, and the `CreateOrPatch` result.

Two collaborators are parameters of the model:

- Template rendering is `(path, uid) -> Option<string>`.
- YAML marshalling of the claim map is `map<string, int> -> Option<string>`.

Modules: `Basics` (Option, Result), `Parse` (`strconv.ParseInt`, decimal formatting,
`strings.Cut`), `Kube`, `Tracker`, `Featuresets`, `ConfigStore` (the single-key upsert
shared by two reconcilers), `FeatureController`, `HelmReleaseController` and
`NamespaceController`.

Points where the code behaves in a way a reader might not expect, which the model follows:

- A namespace carrying only one of the two annotations is not unassigned. The missing
  annotation reads as `""`, so the two values differ and the call fails with a mismatch
  error when the lone value is non-empty, and with a format error when it is empty.
  `Tracker.LoneAnnotationIsError` states this.
- `pkg/controller/helmrelease_controller.go:106` calls `featuresets.Render(filename, uid)`
  with a path. That does not match `Render(f Feature, uid)` at `pkg/featuresets/lib.go:31`.
  The model renders by path, and a Feature's path is `<featureSet>/<name>.yaml` as in
  `lib.go:32`.
- The HelmRelease reconciler is never registered in `pkg/cmds/run.go:134-151`. Only the
  Feature reconciler is, plus the Namespace reconciler on an open-cluster-management spoke.
  The model describes the reconciler as written, whether or not it runs.
- In the HelmRelease reconciler, a namespace read that fails with anything other than
  NotFound is ignored at line 83, and the step goes on to `GetUid`. In the model a call
  with an injected failure fails on every attempt within a step, so `GetUid`'s own read
  returns that failure; `HelmReleaseController.NamespaceReadFailureSurfacesFromGetUid`
  states this.
- A HelmRelease without a target namespace reads the namespace `""`, which does not
  exist, and tries to create it; the API server refuses a nameless object, so the step
  returns that error on every attempt. `HelmReleaseController.MissingNamespaceIsCreated`
  states this.

## Model

| member | source | states |
|---|---|---|
| `Parse.ParseInt` | pkg/tracker/tracker.go:58-65 | a parse result lies in the int64 range; the input is non-empty, starts with a digit or a sign, and is all digits after the first character |
| `Parse.ParseSignedDigits` | pkg/tracker/tracker.go:58-65 | every optional `+`/`-` followed by one or more digits (leading zeros allowed) parses to its signed value when that is an int64, and is refused otherwise |
| `Parse.ParsedIsSignedDigits` | pkg/tracker/tracker.go:58-65 | every accepted text is an optional sign followed by one or more digits, and its result is the value they denote |
| `Parse.ParseFormatRoundTrip` | pkg/tracker/tracker.go:58-65 | parsing the decimal text of any int64 value gives that value back |
| `Parse.ParseRejectsOutOfRange` | pkg/tracker/tracker.go:58-65 | the decimal text of a value outside int64 is refused, not wrapped |
| `Parse.Cut` | pkg/tracker/tracker.go:53-56 | the split is at the first `/`: text before it has no `/`, and before + `/` + after is the input; without a `/` the result is (input, "", false) |
| `Parse.CutAtFirst` | pkg/tracker/tracker.go:53 | if the text before a `/` contains no `/`, `Cut` splits exactly there |
| `Kube.CreateNamespaceObj` | pkg/controller/helmrelease_controller.go:83-87 | a created namespace is new, named and unannotated, and nothing else changes; an empty name is refused as invalid; a non-empty free name with no injected failure is always created |
| `Kube.CreateOrPatch` | pkg/controller/feature_controller.go:75-90 | something is written exactly when the result is Created or Updated; OpNone exactly when the object exists and the mutation leaves it equal; Created exactly on a NotFound read with no write failure; every error is the read failure or the write failure |
| `Tracker.ResolveRange` | pkg/tracker/tracker.go:44-66 | every error comes with the `(-1, -1)` sentinel; a success lies in int64; a success on an annotated namespace needs both annotations present and equal |
| `Tracker.GetUid` | pkg/tracker/tracker.go:37-66 | errors come with the sentinel; NotFound is never returned as an error; a missing namespace reads as unassigned; a readable namespace resolves its own annotations through `ResolveRange` |
| `Tracker.LookupFailure` | pkg/tracker/tracker.go:39-42 | a missing namespace is `(-1, -1)` with no error; any other read failure is returned with `(-1, -1)` |
| `Tracker.NoAnnotationsUnassigned` | pkg/tracker/tracker.go:44-48 | with neither annotation the result is `(-1, -1)` with no error |
| `Tracker.MismatchIsError` | pkg/tracker/tracker.go:49-51 | differing annotation texts give a mismatch error that carries both texts; a missing annotation compares as "" |
| `Tracker.LoneAnnotationIsError` | pkg/tracker/tracker.go:44-56 | a namespace with exactly one of the two annotations always gets an error: a mismatch, or a format error when the lone value is empty |
| `Tracker.NoSlashIsFormatError` | pkg/tracker/tracker.go:53-56 | equal annotations without `/` give the format error |
| `Tracker.SuccessIsParseOfFirstSplit` | pkg/tracker/tracker.go:53-66 | a success means equal annotations containing `/`, and start and range are the int64 parses of the text before and after the first `/` |
| `Tracker.ParsedHalvesResolve` | pkg/tracker/tracker.go:44-66 | conversely, equal annotations that split at a `/` into two parseable halves resolve to exactly those parses with no error |
| `Tracker.SignedDigitsResolve` | pkg/tracker/tracker.go:53-66 | a start and a size each written as an optional sign and digits, leading zeros allowed, resolve to the values they denote when both are int64s |
| `Tracker.FormattedRangeResolves` | pkg/tracker/tracker.go:44-66 | both annotations set to `FormatInt(s)/FormatInt(r)` resolve to exactly `(s, r)` with no error |
| `Tracker.SplitsAtFirstSlash` | pkg/tracker/tracker.go:53-65 | `"1/2/3"` leaves `"2/3"` as the range text, which is a range-not-integer error |
| `Tracker.ParsedMinusOneLooksUnassigned` | pkg/tracker/tracker.go:34-66 | `"-1/5"` succeeds with start -1, equal to the `UidNone` sentinel |
| `Tracker.WatchAdmitsAssigned` | pkg/controller/feature_controller.go:122-125 | every namespace that resolves to an assigned start carries `KeyUid`, so the watch predicate lets it through |
| `Tracker.WatchAdmits` | pkg/controller/helmrelease_controller.go:152-155 | the Namespace watch of both the Feature and the HelmRelease controller lets a namespace through exactly when it carries `KeyUid` |
| `ConfigStore.Upsert` | pkg/controller/feature_controller.go:69-93 | only the shared ConfigMap can change, and in it only entry `key`; on success that entry holds the value; OpNone exactly when the map is readable, has data, and already holds the value; errors leave the cluster unchanged |
| `ConfigStore.WithEntry` | pkg/controller/feature_controller.go:75-86 | the mutated ConfigMap has data, holds the value under the key, keeps every other entry, and equals the input exactly when the entry already held the value |
| `ConfigStore.UpsertIdempotent` | pkg/controller/feature_controller.go:75-93 | a second identical upsert leaves the cluster unchanged, and reports OpNone after a successful first one |
| `ConfigStore.UpsertsCommute` | pkg/controller/feature_controller.go:75-87 | upserts of distinct keys give the same cluster in either order |
| `ConfigStore.UpsertUnfaulted` | pkg/controller/feature_controller.go:75-87 | when neither the read nor the write of the ConfigMap fails, the upsert leaves exactly the old entries with the one key set, whether it wrote or found the entry already in place |
| `FeatureController.Reconcile` | pkg/controller/feature_controller.go:56-95 | only the shared ConfigMap can change, and in it only `<feature>.yaml`; an error, or a step that stops before the write, leaves the cluster as it was |
| `FeatureController.FeatureLookupFailure` | pkg/controller/feature_controller.go:59-62 | a missing Feature is a no-op with no error; another read failure is returned with nothing changed |
| `FeatureController.UidGate` | pkg/controller/feature_controller.go:64-67 | a `GetUid` error is returned and an unassigned namespace ends the step quietly; neither writes |
| `FeatureController.WritesRenderingOrPlaceholder` | pkg/controller/feature_controller.go:75-86 | a successful step leaves the rendering of `<featureSet>/<name>.yaml`, or `"{}"` when rendering fails; an empty or nil data map ends up holding just that key |
| `FeatureController.RenderingNeverFails` | pkg/controller/feature_controller.go:80-89 | every error is an API failure or a `GetUid` error; while the ConfigMap write cannot fail, the renderer does not affect the error |
| `FeatureController.InputsUnchanged` | pkg/controller/feature_controller.go:59-93 | a step does not change the Feature read or any `GetUid` answer |
| `FeatureController.StepShape` | pkg/controller/feature_controller.go:59-87 | a step is an upsert of its desired value or leaves the cluster alone, and the desired value does not depend on the ConfigMap |
| `FeatureController.Idempotent` | pkg/controller/feature_controller.go:75-93 | reconciling again on the result changes nothing, and reports OpNone after a step that wrote |
| `FeatureController.DistinctFeaturesCommute` | pkg/controller/feature_controller.go:75-87 | steps for Features with distinct names give the same cluster in either order |
| `FeatureController.BothEntriesSurvive` | pkg/controller/feature_controller.go:75-87 | when both steps for two distinct Features write, the first entry is intact after the second step and the second entry is present |
| `FeatureController.ParsedMinusOneWritesNothing` | pkg/controller/feature_controller.go:64-67 | a chart namespace annotated `-1/5` makes the step a no-op without error |
| `FeatureController.DependentsConcat` | pkg/controller/feature_controller.go:109-118 | the fan-out of a concatenated list is the concatenation of the fan-outs, so list order is kept |
| `FeatureController.DependentsExactly` | pkg/controller/feature_controller.go:110-117 | a request is produced exactly when some Feature with that name has the namespace as its chart namespace |
| `FeatureController.Dependents` | pkg/controller/feature_controller.go:109-118 | at most one request per listed Feature, each with an empty namespace |
| `FeatureController.MapNamespaceToFeatures` | pkg/controller/feature_controller.go:99-119 | a failed Feature list produces no requests; a successful one produces the fan-out of the whole list for the namespace |
| `HelmReleaseController.Reconcile` | pkg/controller/helmrelease_controller.go:58-121 | only namespaces and the shared ConfigMap can change; of the entries only `<release>.yaml`; existing namespaces keep their annotations and new ones are unannotated; an error, or a step that stops before the upsert, leaves the ConfigMap as it was |
| `HelmReleaseController.ReleaseLookupFailure` | pkg/controller/helmrelease_controller.go:61-64 | a missing release is a no-op with no error; another read failure is returned with nothing changed |
| `HelmReleaseController.TemplateSelection` | pkg/controller/helmrelease_controller.go:66-76 | a same-named Feature gives `<featureSet>/<name>.yaml`; NotFound with release `ace` gives `ace.yaml`; NotFound otherwise stops without error; another read failure is returned |
| `HelmReleaseController.SelectTemplate` | pkg/controller/helmrelease_controller.go:66-76 | a template is chosen exactly when the Feature read succeeds, or is NotFound for the release `ace`; a stop carries the read's failure, or no error only on NotFound |
| `HelmReleaseController.EnsureNamespace` | pkg/controller/helmrelease_controller.go:78-87 | the cluster is unchanged, or one fresh unannotated namespace is added; an existing namespace, or one whose read fails other than NotFound, gives the cluster back unchanged without a create |
| `HelmReleaseController.WritesWhenAssigned` | pkg/controller/helmrelease_controller.go:89-113 | a found release with a chosen template and an existing, readable, assigned target namespace is written: the step is the upsert of `<release>.yaml` with the template's rendering at the range start, or `"{}"` |
| `HelmReleaseController.MissingNamespaceIsCreated` | pkg/controller/helmrelease_controller.go:78-92 | a missing target namespace is created; a failed create ends the step at once (no error on AlreadyExists); an empty target name is refused as invalid and that error is returned; a successful create leaves an unannotated namespace, so the step stops before the write |
| `HelmReleaseController.HaltStopsStep` | pkg/controller/helmrelease_controller.go:66-73 | when no template is chosen the step returns the selection's error (none for a missing Feature of a release other than `ace`) and changes nothing |
| `HelmReleaseController.UidGate` | pkg/controller/helmrelease_controller.go:89-92 | with the target namespace in place, a `GetUid` error is returned and an unassigned namespace stops the step quietly, and the ConfigMap is left as it was |
| `HelmReleaseController.NamespaceReadFailureSurfacesFromGetUid` | pkg/controller/helmrelease_controller.go:83-91 | a failed namespace read other than NotFound does not create; in the model, where a faulted read fails on every attempt within a step, the same failure is returned through `GetUid` |
| `HelmReleaseController.EntryKeyedByReleaseName` | pkg/controller/helmrelease_controller.go:100-113 | a successful write lands under `<release>.yaml` whatever template was chosen, holding that template's rendering or `"{}"` |
| `HelmReleaseController.Idempotent` | pkg/controller/helmrelease_controller.go:58-121 | reconciling again on the result changes nothing, namespace creation included, and reports OpNone after a step that wrote |
| `HelmReleaseController.FanOutErasesNamespace` | pkg/controller/helmrelease_controller.go:135-144 | the fan-out as written enqueues the same releases, in the same list order, as the corrected one, with each request's namespace left empty |
| `HelmReleaseController.DependentsExactly` | pkg/controller/helmrelease_controller.go:136-143 | a request is produced exactly when a release of that name targets the namespace, and it always has an empty namespace |
| `HelmReleaseController.Dependents` | pkg/controller/helmrelease_controller.go:135-144 | at most one request per listed release, each carrying only a name |
| `HelmReleaseController.MapNamespaceToHelmReleases` | pkg/controller/helmrelease_controller.go:125-145 | a failed release list produces no requests; a successful one produces the fan-out of the whole list for the namespace |
| `HelmReleaseController.FanOutReachesNoNamespacedRelease` | pkg/controller/helmrelease_controller.go:140-142 | when every release lives in a named namespace, each fanned-out request reconciles to a no-op |
| `HelmReleaseController.FixedFanOutReachesEveryRelease` | pkg/controller/helmrelease_controller.go:136-143 | with the namespace in the request, every release that targets the namespace is enqueued under a key that finds exactly that release |
| `NamespaceController.CollectUids` | pkg/controller/namespace_controller.go:74-84 | the loop succeeds exactly when no chart namespace's `GetUid` fails; it then builds the aggregate, whose key set is exactly the distinct chart namespaces; it consults each chart namespace at most once, and all of them on success |
| `NamespaceController.UidMap` | pkg/controller/namespace_controller.go:74-84 | the aggregate exists exactly when no chart namespace's `GetUid` fails; its keys are exactly the chart namespaces, each mapped to its start |
| `NamespaceController.UidMapFramed` | pkg/controller/namespace_controller.go:67-84 | the aggregate depends only on namespaces and failures, not on the claim |
| `NamespaceController.Reconcile` | pkg/controller/namespace_controller.go:54-108 | only the claim can change; only failed API calls are returned; a successful write leaves exactly the serialisation of the freshly built map |
| `NamespaceController.WriteClaimValue` | pkg/controller/namespace_controller.go:91-103 | only the claim changes; a successful write leaves it holding exactly the given value whatever it held; a failed claim read is returned, and so is a failed write when the value differs, each leaving the cluster unchanged; without claim faults there is no error |
| `NamespaceController.WritesClaim` | pkg/controller/namespace_controller.go:57-103 | an annotated namespace whose Feature list, range lookups, marshalling and claim calls all succeed gets the claim written with the serialised map, without error |
| `NamespaceController.ClaimWriteIsTheStep` | pkg/controller/namespace_controller.go:86-103 | once the map is built and marshalled, the step is exactly the claim write, so its error is the step's error |
| `NamespaceController.NamespaceReadFailureReturned` | pkg/controller/namespace_controller.go:57-60 | a namespace read that fails other than NotFound is returned and nothing is written |
| `NamespaceController.IgnoredNamespaces` | pkg/controller/namespace_controller.go:57-65 | a missing namespace, or one without `KeyUid`, is a no-op without error |
| `NamespaceController.SwallowedFailures` | pkg/controller/namespace_controller.go:69-89 | a failed Feature list, a failing `GetUid` or a marshal error gives no error and no write |
| `NamespaceController.PreviousClaimDoesNotSurvive` | pkg/controller/namespace_controller.go:91-100 | two successful steps that differ only in the previous claim leave the same cluster |
| `NamespaceController.UnassignedRecordedAsSentinel` | pkg/controller/namespace_controller.go:78-82 | a chart namespace that is missing or unannotated is recorded as -1, not left out |
| `NamespaceController.RepeatedNamespaceCollapses` | pkg/controller/namespace_controller.go:74-84 | Features charted into ns1 (100/5), ns2 (200/5) and ns1 give exactly `{ns1: 100, ns2: 200}` |
| `NamespaceController.CollapsesRepeats` | pkg/controller/namespace_controller.go:74-84 | Features charted into n1, n2, n1 give a map with exactly the keys n1 and n2 |
| `NamespaceController.Idempotent` | pkg/controller/namespace_controller.go:91-107 | reconciling again on the result changes nothing, and reports OpNone after a step that wrote |
| `NamespaceController.TriggerExactly` | pkg/controller/namespace_controller.go:113-130 | the trigger fires exactly for a namespace carrying `KeyUid` that some listed Feature targets, and never when the list fails |
| `NamespaceController.TriggerAdmits` | pkg/controller/namespace_controller.go:113-130 | the trigger fires only for a namespace carrying `KeyUid` while the Feature list succeeds and is non-empty |

## Findings

| source | as written | input that shows it | evidently intended | confidence | as-written member | corrected member |
|---|---|---|---|---|---|---|
| pkg/controller/helmrelease_controller.go:140-142 | the Namespace watch enqueues `Request{Name: hr.Name}` with no namespace, but HelmReleases are namespaced, so the step's Get of `("", name)` is NotFound and the step does nothing | a release `flux-system/ace` with target namespace `kubeops`, and a change to the annotated `kubeops` namespace | enqueue `Request{Namespace: hr.Namespace, Name: hr.Name}` so the release is re-rendered | medium, not executed | `HelmReleaseController.FanOutReachesNoNamespacedRelease` | `HelmReleaseController.FixedFanOutReachesEveryRelease` |

## Left out

- The client, watches, work queues, requeue and backoff are not modelled. Each reconcile
  step is one function call on a fixed cluster state.
- Concurrency between workers is not modelled. Commuting steps
  (`FeatureController.DistinctFeaturesCommute`) stand in for it.
- Context cancellation and logging are not modelled.
- `CreateOrPatch` is reduced to read, mutate, compare and write. Its HTTP patch, resource
  versions and conflict retry are not modelled. A write fails only when a failure is
  injected for it.
- The template engine and the embedded template catalog (`pkg/featuresets/lib.go`) are an
  abstract renderer parameter. Whitespace trimming belongs to the engine.
- The exact YAML bytes of `yaml.Marshal` are an abstract marshaller parameter.
- `strconv.ParseInt` is modelled as an optional sign, decimal digits and the int64 range.
  Its error values are not modelled.
- `pkg/cmds/run.go` (flags, manager, TLS, metrics, health probes, leader election) is not
  modelled. It registers the Namespace reconciler only on an open-cluster-management spoke,
  and never registers the HelmRelease reconciler.
- `NamespaceController.CollectUids` does not state the order in which namespaces are
  consulted. It only states that each is consulted at most once, and all of them on
  success.
- `Tracker.UidRange` (10000) is declared but used by none of the modelled code.
- HelmReleaseController.NamespaceReadFailureSurfacesFromGetUid: two reads of the same
  object within one step always agree in the model, so a transient failure of the read at
  `helmrelease_controller.go:83` followed by a successful read inside `GetUid`, after which
  the step goes on to the write, is not modelled.
- Kube.GetNamespaceObj: a read with an empty name is an ordinary lookup (NotFound unless
  such a namespace is stored); the client's own refusal of an empty name is not modelled.
  For the HelmRelease step both paths end in an error returned on every attempt.

=== FILE: basics.dfy ===
/** Failure-carrying wrappers shared by every module of the model. */
module Basics {

  /** A value that may be absent (Go's nil map, missing object, failed render). */
  datatype Option<+T> = None | Some(value: T)

  /** A value or the error that prevented computing it. */
  datatype Result<+T, +E> = Ok(value: T) | Err(error: E)
}

=== FILE: config_store.dfy ===
/** The keyed config merger: the single-key upsert the Feature and HelmRelease reconcilers
    perform on the shared ConfigMap `kubeops/ace-openshift-scc`, and the result type of a
    reconcile step. */
module ConfigStore {
  import opened Basics
  import opened Kube
  import opened Tracker

  const ConfigMapName: string := "ace-openshift-scc"
  const ConfigMapNamespace: string := "kubeops"

  /** The entry an object named `name` owns: `<name>.yaml`. */
  function EntryKey(name: string): string {
    name + ".yaml"
  }

  /** The stored entries; an absent ConfigMap and a nil data map both hold none. */
  function Entries(cm: Option<ConfigMap>): map<string, string> {
    if cm.Some? && cm.value.data.Some? then cm.value.data.value else map[]
  }

  /** The stored value of one entry. */
  function Entry(c: Cluster, key: string): Option<string> {
    var d := Entries(c.sccConfig);
    if key in d then Some(d[key]) else None
  }

  /** The mutation both reconcilers hand to `CreateOrPatch`: allocate a nil data map,
      then set one key. */
  function WithEntry(cm: ConfigMap, key: string, value: string): (r: ConfigMap)
    ensures r.data.Some?
    ensures r.data.value.Keys == Entries(Some(cm)).Keys + {key}
    ensures r.data.value[key] == value
    ensures forall k :: k in Entries(Some(cm)) && k != key ==> r.data.value[k] == Entries(Some(cm))[k]
    ensures r == cm <==> cm.data.Some? && key in cm.data.value && cm.data.value[key] == value
  {
    var d := if cm.data.Some? then cm.data.value else map[];
    assert key in d && d[key] == value ==> d[key := value] == d;
    ConfigMap(Some(d[key := value]))
  }

  /** The outcome of one reconcile step: the cluster afterwards, the error returned to
      the work queue, and the `CreateOrPatch` result when the step got that far and it
      succeeded. */
  datatype Reconciled = Reconciled(cluster: Cluster, err: Option<Error>, op: Option<OpResult>)

  /** Distinct object names own distinct entries. */
  lemma EntryKeysDistinct(a: string, b: string)
    requires a != b
    ensures EntryKey(a) != EntryKey(b)
  {
    assert EntryKey(a)[..|a|] == a;
    assert EntryKey(b)[..|b|] == b;
    assert |EntryKey(a)| - |a| == |EntryKey(b)| - |b|;
  }

  /** The entries a successful upsert leaves behind. */
  function Upserted(c: Cluster, key: string, value: string): (cm: Option<ConfigMap>)
    ensures Entries(cm) == Entries(c.sccConfig)[key := value]
  {
    var d := Entries(c.sccConfig);
    assert WithEntry(if c.sccConfig.Some? then c.sccConfig.value else ConfigMap(None), key, value).data.value
        == d[key := value];
    Some(ConfigMap(Some(d[key := value])))
  }

  /** Read-modify-write of entry `key` of the shared ConfigMap. */
  function Upsert(c: Cluster, key: string, value: string): (r: Reconciled)
    ensures r.err.None? <==> r.op.Some?
    ensures r.err.Some? ==> r.cluster == c && r.err.value.Api?
    ensures r.cluster == c.(sccConfig := r.cluster.sccConfig)
    ensures r.op.Some? && r.op.value != OpNone ==> r.cluster.sccConfig == Upserted(c, key, value)
    ensures r.err.None? ==> Entry(r.cluster, key) == Some(value)
    ensures forall k :: k != key ==> Entry(r.cluster, k) == Entry(c, k)
    ensures r.op == Some(OpNone) <==>
              ReadConfigMap(c).Ok? && c.sccConfig.value.data.Some? && Entry(c, key) == Some(value)
    ensures r.op == Some(OpNone) ==> r.cluster == c
  {
    var p := CreateOrPatch(ReadConfigMap(c), ConfigMap(None), cm => WithEntry(cm, key, value),
                           Fault(c, WriteConfigMap));
    match p.result
    case Err(e) => Reconciled(c, Some(Api(e)), None)
    case Ok(op) =>
      Reconciled(c.(sccConfig := if p.written.Some? then p.written else c.sccConfig), None, Some(op))
  }

  /** Upserting the same entry again changes nothing and reports `OpNone`. */
  lemma UpsertIdempotent(c: Cluster, key: string, value: string)
    ensures Upsert(Upsert(c, key, value).cluster, key, value).cluster == Upsert(c, key, value).cluster
    ensures Upsert(c, key, value).err.None? ==> Upsert(Upsert(c, key, value).cluster, key, value).op == Some(OpNone)
  {
    var r1 := Upsert(c, key, value);
    if r1.err.None? && r1.op != Some(OpNone) {
      assert GetConfigMap !in c.faults;
      assert Entry(r1.cluster, key) == Some(value);
    }
  }

  /** With neither the read nor the write failing, an upsert always leaves exactly the
      upserted entries behind, whether or not it had to write. */
  lemma UpsertUnfaulted(c: Cluster, key: string, value: string)
    requires GetConfigMap !in c.faults && WriteConfigMap !in c.faults
    ensures Upsert(c, key, value).cluster == c.(sccConfig := Upserted(c, key, value))
  {
    var r := Upsert(c, key, value);
    if r.op == Some(OpNone) {
      var d := Entries(c.sccConfig);
      assert d[key := value] == d;
      assert c.sccConfig == Some(ConfigMap(Some(d)));
    }
  }

  /** A failing read, or a failing write, leaves the cluster as it was. */
  lemma UpsertFaulted(c: Cluster, key: string, value: string)
    requires GetConfigMap in c.faults || WriteConfigMap in c.faults
    ensures Upsert(c, key, value).cluster == c
  {
  }

  /** Upserts of distinct keys commute: neither can lose the other's entry, whatever the
      order in which they reach the ConfigMap. */
  lemma UpsertsCommute(c: Cluster, k1: string, v1: string, k2: string, v2: string)
    requires k1 != k2
    ensures Upsert(Upsert(c, k1, v1).cluster, k2, v2).cluster
         == Upsert(Upsert(c, k2, v2).cluster, k1, v1).cluster
  {
    if GetConfigMap in c.faults || WriteConfigMap in c.faults {
      UpsertFaulted(c, k1, v1);
      UpsertFaulted(c, k2, v2);
    } else {
      UnfaultedUpsertsCommute(c, k1, v1, k2, v2);
    }
  }

  /** Distinct-key upserts commute when neither the read nor the write fails. */
  lemma UnfaultedUpsertsCommute(c: Cluster, k1: string, v1: string, k2: string, v2: string)
    requires k1 != k2
    requires GetConfigMap !in c.faults && WriteConfigMap !in c.faults
    ensures Upsert(Upsert(c, k1, v1).cluster, k2, v2).cluster
         == Upsert(Upsert(c, k2, v2).cluster, k1, v1).cluster
  {
    var c1 := Upsert(c, k1, v1).cluster;
    var c2 := Upsert(c, k2, v2).cluster;
    UpsertUnfaulted(c, k1, v1);
    UpsertUnfaulted(c, k2, v2);
    UpsertUnfaulted(c1, k2, v2);
    UpsertUnfaulted(c2, k1, v1);
    UpsertedCommute(c, k1, v1, k2, v2);
  }

  /** Setting two distinct keys in either order stores the same entries. */
  lemma UpsertedCommute(c: Cluster, k1: string, v1: string, k2: string, v2: string)
    requires k1 != k2
    ensures Upserted(c.(sccConfig := Upserted(c, k1, v1)), k2, v2)
         == Upserted(c.(sccConfig := Upserted(c, k2, v2)), k1, v1)
  {
    var d := Entries(c.sccConfig);
    assert d[k1 := v1][k2 := v2] == d[k2 := v2][k1 := v1];
  }
}

=== FILE: feature_controller.dfy ===
/** `FeatureReconciler`: renders a Feature's template with its chart namespace's start UID
    and stores it under `<feature>.yaml` in the shared ConfigMap; plus the Namespace watch
    that re-enqueues the Features charted into a namespace. */
module FeatureController {
  import opened Basics
  import opened Kube
  import opened Tracker
  import opened Featuresets
  import opened ConfigStore

  /** One `Reconcile` call for the Feature named by `req` (Features are cluster-scoped). */
  function Reconcile(c: Cluster, render: Renderer, req: Request): (r: Reconciled)
    ensures r.cluster == c.(sccConfig := r.cluster.sccConfig)
    ensures forall k :: k != EntryKey(req.name) ==> Entry(r.cluster, k) == Entry(c, k)
    ensures r.err.Some? ==> r.cluster == c
    ensures r.op.None? ==> r.cluster == c
  {
    match GetFeatureObj(c, req.name)
    case Err(e) => Reconciled(c, IgnoreNotFound(e), None)
    case Ok(feature) =>
      var uid := GetUid(c, feature.chartNamespace);
      if uid.err.Some? || uid.start == UidNone then Reconciled(c, uid.err, None)
      else Upsert(c, EntryKey(feature.name), RenderOrPlaceholder(render, FeaturePath(feature), uid.start))
  }

  /** A missing Feature is a no-op without error; any other lookup failure is returned,
      and the ConfigMap is untouched either way. */
  lemma FeatureLookupFailure(c: Cluster, render: Renderer, req: Request)
    ensures GetFeature(req.name) !in c.faults && (forall f :: f in c.features ==> f.name != req.name) ==>
              Reconcile(c, render, req) == Reconciled(c, None, None)
    ensures GetFeature(req.name) in c.faults ==>
              Reconcile(c, render, req) == Reconciled(c, Some(Api(Failed(c.faults[GetFeature(req.name)]))), None)
  {
  }

  /** A `GetUid` error is returned, and an unassigned namespace stops the step quietly;
      in both cases nothing is written. */
  lemma UidGate(c: Cluster, render: Renderer, req: Request, f: Feature)
    requires GetFeatureObj(c, req.name) == Ok(f)
    ensures GetUid(c, f.chartNamespace).err.Some? ==>
              Reconcile(c, render, req) == Reconciled(c, GetUid(c, f.chartNamespace).err, None)
    ensures GetUid(c, f.chartNamespace).start == UidNone ==>
              Reconcile(c, render, req) == Reconciled(c, GetUid(c, f.chartNamespace).err, None)
  {
  }

  /** On success the Feature's entry holds its rendering, or `"{}"` when rendering fails;
      a nil or absent data map comes back holding just that entry. */
  lemma WritesRenderingOrPlaceholder(c: Cluster, render: Renderer, req: Request, f: Feature)
    requires GetFeatureObj(c, req.name) == Ok(f)
    requires Reconcile(c, render, req).err.None?
    requires GetUid(c, f.chartNamespace).start != UidNone
    ensures var uid := GetUid(c, f.chartNamespace).start;
            Entry(Reconcile(c, render, req).cluster, EntryKey(req.name))
              == Some(if render(FeaturePath(f), uid).Some? then render(FeaturePath(f), uid).value else Placeholder)
    ensures Entries(c.sccConfig) == map[] ==>
              Entries(Reconcile(c, render, req).cluster.sccConfig).Keys == {EntryKey(req.name)}
  {
  }

  /** Rendering never fails the step: every error comes from an API call or from `GetUid`,
      and while the ConfigMap write cannot fail, two renderers give the same error. */
  lemma RenderingNeverFails(c: Cluster, render1: Renderer, render2: Renderer, req: Request)
    ensures Reconcile(c, render1, req).err.Some? ==>
              Reconcile(c, render1, req).err.value.Api? || GetUid(c, GetFeatureObj(c, req.name).value.chartNamespace).err.Some?
    ensures WriteConfigMap !in c.faults ==> Reconcile(c, render1, req).err == Reconcile(c, render2, req).err
  {
  }

  /** The reconciler reads nothing it writes, so its inputs are the same after a step. */
  lemma InputsUnchanged(c: Cluster, render: Renderer, req: Request)
    ensures var c' := Reconcile(c, render, req).cluster;
            GetFeatureObj(c', req.name) == GetFeatureObj(c, req.name)
            && (forall n :: GetUid(c', n) == GetUid(c, n))
  {
    var c' := Reconcile(c, render, req).cluster;
    assert c'.namespaces == c.namespaces && c'.faults == c.faults && c'.features == c.features;
  }

  /** Reconciling again on the resulting state changes nothing, and a step that succeeded
      is followed by one that reports `OpNone`. */
  lemma Idempotent(c: Cluster, render: Renderer, req: Request)
    ensures var r1 := Reconcile(c, render, req);
            Reconcile(r1.cluster, render, req).cluster == r1.cluster
    ensures var r1 := Reconcile(c, render, req);
            r1.op.Some? ==> Reconcile(r1.cluster, render, req).op == Some(OpNone)
  {
    var r1 := Reconcile(c, render, req);
    InputsUnchanged(c, render, req);
    match GetFeatureObj(c, req.name)
    case Err(_) =>
    case Ok(f) =>
      var uid := GetUid(c, f.chartNamespace);
      if uid.err.None? && uid.start != UidNone {
        UpsertIdempotent(c, EntryKey(f.name), RenderOrPlaceholder(render, FeaturePath(f), uid.start));
      }
  }

  /** The value a step wants to store under the Feature's entry, if it gets that far. */
  function Desired(c: Cluster, render: Renderer, req: Request): Option<string> {
    match GetFeatureObj(c, req.name)
    case Err(_) => None
    case Ok(f) =>
      var uid := GetUid(c, f.chartNamespace);
      if uid.err.Some? || uid.start == UidNone then None
      else Some(RenderOrPlaceholder(render, FeaturePath(f), uid.start))
  }

  /** A step is an upsert of its desired value, or leaves the cluster as it is; and what it
      desires depends only on what steps do not write. */
  lemma StepShape(c: Cluster, render: Renderer, req: Request, x: Option<ConfigMap>)
    ensures Desired(c, render, req).Some? ==>
              Reconcile(c, render, req).cluster == Upsert(c, EntryKey(req.name), Desired(c, render, req).value).cluster
    ensures Desired(c, render, req).None? ==> Reconcile(c, render, req).cluster == c
    ensures Desired(c.(sccConfig := x), render, req) == Desired(c, render, req)
  {
    var c' := c.(sccConfig := x);
    assert GetFeatureObj(c', req.name) == GetFeatureObj(c, req.name);
    assert forall n :: GetUid(c', n) == GetUid(c, n) by {
      forall n ensures GetUid(c', n) == GetUid(c, n) {
        assert GetNamespaceObj(c', n) == GetNamespaceObj(c, n);
      }
    }
  }

  /** Features with distinct names write disjoint entries, so their steps commute. */
  lemma DistinctFeaturesCommute(c: Cluster, render: Renderer, a: Request, b: Request)
    requires a.name != b.name
    ensures Reconcile(Reconcile(c, render, a).cluster, render, b).cluster
         == Reconcile(Reconcile(c, render, b).cluster, render, a).cluster
  {
    var ca := Reconcile(c, render, a).cluster;
    var cb := Reconcile(c, render, b).cluster;
    StepShape(c, render, a, None);
    StepShape(c, render, b, None);
    StepShape(c, render, a, cb.sccConfig);
    StepShape(c, render, b, ca.sccConfig);
    assert cb == c.(sccConfig := cb.sccConfig);
    assert ca == c.(sccConfig := ca.sccConfig);
    StepShape(cb, render, a, None);
    StepShape(ca, render, b, None);
    var da := Desired(c, render, a);
    var db := Desired(c, render, b);
    if da.Some? && db.Some? {
      EntryKeysDistinct(a.name, b.name);
      UpsertsCommute(c, EntryKey(a.name), da.value, EntryKey(b.name), db.value);
    }
  }

  /** Two Features reconciled one after the other both keep their entries. */
  lemma BothEntriesSurvive(c: Cluster, render: Renderer, a: Request, b: Request)
    requires a.name != b.name
    ensures var ra := Reconcile(c, render, a);
            var rb := Reconcile(ra.cluster, render, b);
            ra.op.Some? && rb.op.Some? ==>
              Entry(rb.cluster, EntryKey(a.name)) == Entry(ra.cluster, EntryKey(a.name))
              && Entry(rb.cluster, EntryKey(b.name)).Some?
  {
    EntryKeysDistinct(a.name, b.name);
    InputsUnchanged(c, render, a);
  }

  /** A namespace annotated `-1/5` parses to start -1, which the reconciler cannot tell
      from "unassigned": nothing is written. */
  lemma ParsedMinusOneWritesNothing(c: Cluster, render: Renderer, req: Request, f: Feature)
    requires GetFeatureObj(c, req.name) == Ok(f)
    requires GetNamespace(f.chartNamespace) !in c.faults && f.chartNamespace in c.namespaces
    requires var a := c.namespaces[f.chartNamespace];
             KeyUid in a && KeyFsGroup in a && a[KeyUid] == "-1/5" && a[KeyFsGroup] == "-1/5"
    ensures Reconcile(c, render, req) == Reconciled(c, None, None)
  {
    ParsedMinusOneLooksUnassigned(c.namespaces[f.chartNamespace]);
  }

  /** The Features charted into namespace `ns`, in list order, as work-queue requests. */
  function Dependents(fs: seq<Feature>, ns: string): (reqs: seq<Request>)
    ensures |reqs| <= |fs|
    ensures forall i :: 0 <= i < |reqs| ==> reqs[i].namespace == ""
    decreases |fs|
  {
    if |fs| == 0 then []
    else
      var last := fs[|fs| - 1];
      Dependents(fs[..|fs| - 1], ns) + (if last.chartNamespace == ns then [Request("", last.name)] else [])
  }

  /** The map function of the Namespace watch: nothing when the Feature list fails. */
  function MapNamespaceToFeatures(c: Cluster, obj: Namespace): (reqs: seq<Request>)
    ensures ListFeatures in c.faults ==> reqs == []
    ensures ListFeatures !in c.faults ==> reqs == Dependents(c.features, obj.name)
  {
    match ListFeatureObjs(c)
    case Err(_) => []
    case Ok(fs) => Dependents(fs, obj.name)
  }

  /** Fan-out distributes over concatenation of the Feature list, so it keeps list order. */
  lemma {:induction false} DependentsConcat(xs: seq<Feature>, ys: seq<Feature>, ns: string)
    ensures Dependents(xs + ys, ns) == Dependents(xs, ns) + Dependents(ys, ns)
    decreases |ys|
  {
    if |ys| > 0 {
      var ys' := ys[..|ys| - 1];
      assert (xs + ys)[..|xs + ys| - 1] == xs + ys';
      DependentsConcat(xs, ys', ns);
    } else {
      assert xs + ys == xs;
    }
  }

  /** A request is fanned out exactly when some Feature of that name targets the namespace. */
  lemma {:induction false} DependentsExactly(fs: seq<Feature>, ns: string, req: Request)
    ensures req in Dependents(fs, ns) <==>
              req.namespace == "" && exists f :: f in fs && f.chartNamespace == ns && f.name == req.name
    decreases |fs|
  {
    if |fs| > 0 {
      var init := fs[..|fs| - 1];
      DependentsExactly(init, ns, req);
      assert fs == init + [fs[|fs| - 1]];
      if exists f :: f in fs && f.chartNamespace == ns && f.name == req.name {
        var f :| f in fs && f.chartNamespace == ns && f.name == req.name;
        if f != fs[|fs| - 1] {
          assert f in init;
        }
      }
    }
  }
}

=== FILE: featuresets.dfy ===
/** The template catalog of `pkg/featuresets`, kept abstract: rendering is a parameter of
    the reconcilers, a function from a template path and a start UID to the rendered,
    whitespace-trimmed text, or `None` when the template is missing or fails to execute. */
module Featuresets {
  import opened Basics
  import opened Kube

  type Renderer = (string, int) -> Option<string>

  /** The value written in place of a template that could not be rendered. */
  const Placeholder: string := "{}"

  /** `<featureSet>/<name>.yaml`, the catalog path of a Feature's template. */
  function FeaturePath(f: Feature): string {
    f.featureSet + "/" + f.name + ".yaml"
  }

  /** What a reconciler stores for a template: its rendering, or the placeholder. */
  function RenderOrPlaceholder(render: Renderer, path: string, uid: int): (text: string)
    ensures render(path, uid).Some? ==> text == render(path, uid).value
    ensures render(path, uid).None? ==> text == Placeholder
  {
    match render(path, uid)
    case Some(t) => t
    case None => Placeholder
  }
}

=== FILE: helmrelease_controller.dfy ===
/** `HelmReleaseReconciler`: picks the template for a HelmRelease, makes sure its target
    namespace exists, and stores the rendering under `<release>.yaml` in the shared
    ConfigMap; plus the Namespace watch that re-enqueues the releases targeting it. */
module HelmReleaseController {
  import opened Basics
  import opened Kube
  import opened Tracker
  import opened Featuresets
  import opened ConfigStore

  /** The release reserved for the fallback template `ace.yaml`. */
  const DefaultRelease: string := "ace"

  /** The template a release renders, or the end of the step with the error to return. */
  datatype Selection = Template(path: string) | Halt(err: Option<Error>)

  /** The template file of a release: its Feature's, or `ace.yaml` for the default release. */
  function SelectTemplate(c: Cluster, hr: HelmRelease): (r: Selection)
    ensures r.Template? <==>
              GetFeatureObj(c, hr.name).Ok? || (GetFeatureObj(c, hr.name) == Err(NotFound) && hr.name == DefaultRelease)
    ensures r.Halt? && r.err.Some? ==> r.err == Some(Api(GetFeatureObj(c, hr.name).error))
    ensures r.Halt? && r.err.None? ==> GetFeatureObj(c, hr.name) == Err(NotFound)
  {
    match GetFeatureObj(c, hr.name)
    case Ok(f) => Template(FeaturePath(f))
    case Err(e) =>
      if e == NotFound && hr.name == DefaultRelease then Template(hr.name + ".yaml")
      else Halt(IgnoreNotFound(e))
  }

  /** `client.IgnoreAlreadyExists`. */
  function IgnoreAlreadyExists(e: ApiError): Option<Error> {
    if e == Failed(AlreadyExists) then None else Some(Api(e))
  }

  /** Creates the namespace when the read says NotFound; any other read failure is
      ignored here, as the source does. */
  function EnsureNamespace(c: Cluster, name: string): (r: Result<Cluster, ApiError>)
    ensures r.Ok? ==> r.value == c || (name !in c.namespaces && r.value == c.(namespaces := c.namespaces[name := map[]]))
    ensures name in c.namespaces || GetNamespace(name) in c.faults ==> r == Ok(c)
  {
    if GetNamespaceObj(c, name) == Err(NotFound) then CreateNamespaceObj(c, name) else Ok(c)
  }

  /** One `Reconcile` call for the HelmRelease named by `req`. */
  function Reconcile(c: Cluster, render: Renderer, req: Request): (r: Reconciled)
    ensures r.cluster == c.(namespaces := r.cluster.namespaces, sccConfig := r.cluster.sccConfig)
    ensures forall k :: k != EntryKey(req.name) ==> Entry(r.cluster, k) == Entry(c, k)
    ensures forall n :: n in c.namespaces ==> n in r.cluster.namespaces && r.cluster.namespaces[n] == c.namespaces[n]
    ensures forall n :: n in r.cluster.namespaces && n !in c.namespaces ==> r.cluster.namespaces[n] == map[]
    ensures r.err.Some? ==> r.cluster.sccConfig == c.sccConfig
    ensures r.op.None? ==> r.cluster.sccConfig == c.sccConfig
  {
    match GetHelmReleaseObj(c, req)
    case Err(e) => Reconciled(c, IgnoreNotFound(e), None)
    case Ok(hr) =>
      match SelectTemplate(c, hr)
      case Halt(err) => Reconciled(c, err, None)
      case Template(path) =>
        match EnsureNamespace(c, hr.targetNamespace)
        case Err(e) => Reconciled(c, IgnoreAlreadyExists(e), None)
        case Ok(c1) =>
          var uid := GetUid(c1, hr.targetNamespace);
          if uid.err.Some? || uid.start == UidNone then Reconciled(c1, uid.err, None)
          else Upsert(c1, EntryKey(hr.name), RenderOrPlaceholder(render, path, uid.start))
  }

  /** A missing release is a no-op without error; any other lookup failure is returned. */
  lemma ReleaseLookupFailure(c: Cluster, render: Renderer, req: Request)
    ensures GetHelmRelease(req.namespace, req.name) !in c.faults
            && (forall h :: h in c.releases ==> h.namespace != req.namespace || h.name != req.name) ==>
              Reconcile(c, render, req) == Reconciled(c, None, None)
    ensures GetHelmRelease(req.namespace, req.name) in c.faults ==>
              Reconcile(c, render, req)
                == Reconciled(c, Some(Api(Failed(c.faults[GetHelmRelease(req.namespace, req.name)]))), None)
  {
  }

  /** The three-way template choice: the same-named Feature's template; else `ace.yaml` for
      the release `ace`; else a quiet stop; a failed Feature read is returned. */
  lemma TemplateSelection(c: Cluster, hr: HelmRelease)
    ensures forall f :: GetFeatureObj(c, hr.name) == Ok(f) ==>
              SelectTemplate(c, hr) == Template(FeaturePath(f))
    ensures GetFeatureObj(c, hr.name) == Err(NotFound) && hr.name == DefaultRelease ==>
              SelectTemplate(c, hr) == Template("ace.yaml")
    ensures GetFeatureObj(c, hr.name) == Err(NotFound) && hr.name != DefaultRelease ==>
              SelectTemplate(c, hr) == Halt(None)
    ensures GetFeature(hr.name) in c.faults ==>
              SelectTemplate(c, hr) == Halt(Some(Api(Failed(c.faults[GetFeature(hr.name)]))))
  {
    assert DefaultRelease + ".yaml" == "ace.yaml";
  }

  /** A target namespace that does not exist is created. A failed create ends the step
      at once (quietly if someone else created it first); an empty target name is refused
      by the API server on every step; a successful create makes an unannotated namespace,
      so the step then stops as "unassigned" without writing. */
  lemma MissingNamespaceIsCreated(c: Cluster, render: Renderer, req: Request, hr: HelmRelease, path: string)
    requires GetHelmReleaseObj(c, req) == Ok(hr)
    requires SelectTemplate(c, hr) == Template(path)
    requires hr.targetNamespace !in c.namespaces && GetNamespace(hr.targetNamespace) !in c.faults
    ensures hr.targetNamespace == "" ==>
              Reconcile(c, render, req) == Reconciled(c, Some(Api(Failed(Invalid))), None)
    ensures hr.targetNamespace != "" && CreateNamespace(hr.targetNamespace) in c.faults ==>
              Reconcile(c, render, req)
                == Reconciled(c, IgnoreAlreadyExists(Failed(c.faults[CreateNamespace(hr.targetNamespace)])), None)
    ensures hr.targetNamespace != "" && CreateNamespace(hr.targetNamespace) !in c.faults ==>
              Reconcile(c, render, req)
                == Reconciled(c.(namespaces := c.namespaces[hr.targetNamespace := map[]]), None, None)
  {
  }

  /** Without a template the step stops before touching any namespace or the ConfigMap,
      returning the selection's error (none for a missing Feature). */
  lemma HaltStopsStep(c: Cluster, render: Renderer, req: Request, hr: HelmRelease, e: Option<Error>)
    requires GetHelmReleaseObj(c, req) == Ok(hr)
    requires SelectTemplate(c, hr) == Halt(e)
    ensures Reconcile(c, render, req) == Reconciled(c, e, None)
  {
  }

  /** Once the target namespace is in place, a `GetUid` error is returned and an
      unassigned namespace stops the step quietly; in both cases nothing is written. */
  lemma UidGate(c: Cluster, render: Renderer, req: Request, hr: HelmRelease, path: string, c1: Cluster)
    requires GetHelmReleaseObj(c, req) == Ok(hr)
    requires SelectTemplate(c, hr) == Template(path)
    requires EnsureNamespace(c, hr.targetNamespace) == Ok(c1)
    requires GetUid(c1, hr.targetNamespace).err.Some? || GetUid(c1, hr.targetNamespace).start == UidNone
    ensures Reconcile(c, render, req) == Reconciled(c1, GetUid(c1, hr.targetNamespace).err, None)
    ensures c1.sccConfig == c.sccConfig
  {
  }

  /** A found release with a chosen template and an existing, readable target namespace
      with an assigned range is written: the step is the upsert of `<release>.yaml` with
      that template's rendering at the range start, or `"{}"`. */
  lemma WritesWhenAssigned(c: Cluster, render: Renderer, req: Request, hr: HelmRelease, path: string)
    requires GetHelmReleaseObj(c, req) == Ok(hr)
    requires SelectTemplate(c, hr) == Template(path)
    requires hr.targetNamespace in c.namespaces && GetNamespace(hr.targetNamespace) !in c.faults
    requires GetUid(c, hr.targetNamespace).err.None? && GetUid(c, hr.targetNamespace).start != UidNone
    ensures Reconcile(c, render, req)
              == Upsert(c, EntryKey(hr.name), RenderOrPlaceholder(render, path, GetUid(c, hr.targetNamespace).start))
  {
  }

  /** A failed read of the target namespace is not acted on by the create branch; the
      step goes on, and in the model, where a faulted call fails on every attempt within
      a step, `GetUid`'s own read of that namespace returns the same failure. */
  lemma NamespaceReadFailureSurfacesFromGetUid(c: Cluster, render: Renderer, req: Request, hr: HelmRelease, path: string)
    requires GetHelmReleaseObj(c, req) == Ok(hr)
    requires SelectTemplate(c, hr) == Template(path)
    requires GetNamespace(hr.targetNamespace) in c.faults
    ensures Reconcile(c, render, req)
              == Reconciled(c, Some(Api(Failed(c.faults[GetNamespace(hr.targetNamespace)]))), None)
  {
  }

  /** On success the entry is always `<release>.yaml`, whichever template was chosen, and
      holds that template's rendering or `"{}"`. */
  lemma EntryKeyedByReleaseName(c: Cluster, render: Renderer, req: Request, hr: HelmRelease, path: string)
    requires GetHelmReleaseObj(c, req) == Ok(hr)
    requires SelectTemplate(c, hr) == Template(path)
    requires hr.targetNamespace in c.namespaces
    requires Reconcile(c, render, req).op.Some?
    ensures var uid := GetUid(c, hr.targetNamespace).start;
            Entry(Reconcile(c, render, req).cluster, EntryKey(hr.name)) == Some(RenderOrPlaceholder(render, path, uid))
  {
  }

  /** Reconciling again on the resulting state changes nothing; after a successful write
      the second step reports `OpNone`. */
  lemma Idempotent(c: Cluster, render: Renderer, req: Request)
    ensures var r1 := Reconcile(c, render, req);
            Reconcile(r1.cluster, render, req).cluster == r1.cluster
    ensures var r1 := Reconcile(c, render, req);
            r1.op.Some? ==> Reconcile(r1.cluster, render, req).op == Some(OpNone)
  {
    match GetHelmReleaseObj(c, req)
    case Err(_) =>
    case Ok(hr) =>
      match SelectTemplate(c, hr)
      case Halt(_) =>
      case Template(path) =>
        match EnsureNamespace(c, hr.targetNamespace)
        case Err(_) =>
        case Ok(c1) => IdempotentOnceSelected(c, render, req, hr, path, c1);
  }

  /** `Idempotent` once the release is found, its template chosen and its namespace in
      place: the second step takes the same path and sees the same range. */
  lemma IdempotentOnceSelected(c: Cluster, render: Renderer, req: Request, hr: HelmRelease, path: string, c1: Cluster)
    requires GetHelmReleaseObj(c, req) == Ok(hr) && SelectTemplate(c, hr) == Template(path)
    requires EnsureNamespace(c, hr.targetNamespace) == Ok(c1)
    ensures var r1 := Reconcile(c, render, req);
            Reconcile(r1.cluster, render, req).cluster == r1.cluster
            && (r1.op.Some? ==> Reconcile(r1.cluster, render, req).op == Some(OpNone))
  {
    var t := hr.targetNamespace;
    var uid := GetUid(c1, t);
    assert EnsureNamespace(c1, t) == Ok(c1);
    if uid.err.None? && uid.start != UidNone {
      IdempotentWrite(c, render, req, hr, path, c1);
    } else {
      var c' := Reconcile(c, render, req).cluster;
      assert c' == c1;
      assert GetHelmReleaseObj(c', req) == Ok(hr);
      assert GetFeatureObj(c', hr.name) == GetFeatureObj(c, hr.name);
    }
  }

  /** The writing case of `Idempotent`: the second upsert stores what the first stored. */
  lemma IdempotentWrite(c: Cluster, render: Renderer, req: Request, hr: HelmRelease, path: string, c1: Cluster)
    requires GetHelmReleaseObj(c, req) == Ok(hr) && SelectTemplate(c, hr) == Template(path)
    requires EnsureNamespace(c, hr.targetNamespace) == Ok(c1)
    requires GetUid(c1, hr.targetNamespace).err.None? && GetUid(c1, hr.targetNamespace).start != UidNone
    ensures var r1 := Reconcile(c, render, req);
            Reconcile(r1.cluster, render, req).cluster == r1.cluster
            && (r1.op.Some? ==> Reconcile(r1.cluster, render, req).op == Some(OpNone))
  {
    var t := hr.targetNamespace;
    var uid := GetUid(c1, t);
    var v := RenderOrPlaceholder(render, path, uid.start);
    assert Reconcile(c, render, req) == Upsert(c1, EntryKey(hr.name), v);
    var c' := Upsert(c1, EntryKey(hr.name), v).cluster;
    UpsertIdempotent(c1, EntryKey(hr.name), v);
    assert GetHelmReleaseObj(c', req) == Ok(hr);
    assert GetFeatureObj(c', hr.name) == GetFeatureObj(c, hr.name);
    assert GetNamespaceObj(c', t) == GetNamespaceObj(c1, t);
    assert EnsureNamespace(c', t) == Ok(c');
    assert GetUid(c', t) == uid;
    assert Reconcile(c', render, req) == Upsert(c', EntryKey(hr.name), v);
  }

  /** The release fan-out as written: the releases targeting `ns`, in list order, each
      enqueued by name only. */
  function Dependents(rs: seq<HelmRelease>, ns: string): (reqs: seq<Request>)
    ensures |reqs| <= |rs|
    ensures forall i :: 0 <= i < |reqs| ==> reqs[i] == Request("", reqs[i].name)
    decreases |rs|
  {
    if |rs| == 0 then []
    else
      var last := rs[|rs| - 1];
      Dependents(rs[..|rs| - 1], ns) + (if last.targetNamespace == ns then [Request("", last.name)] else [])
  }

  /** The map function of the Namespace watch as written: nothing when the list fails. */
  function MapNamespaceToHelmReleases(c: Cluster, obj: Namespace): (reqs: seq<Request>)
    ensures ListHelmReleases in c.faults ==> reqs == []
    ensures ListHelmReleases !in c.faults ==> reqs == Dependents(c.releases, obj.name)
  {
    match ListHelmReleaseObjs(c)
    case Err(_) => []
    case Ok(rs) => Dependents(rs, obj.name)
  }

  /** A request is fanned out exactly when a release of that name targets the namespace. */
  lemma {:induction false} DependentsExactly(rs: seq<HelmRelease>, ns: string, req: Request)
    ensures req in Dependents(rs, ns) <==>
              req.namespace == "" && exists h :: h in rs && h.targetNamespace == ns && h.name == req.name
    decreases |rs|
  {
    if |rs| > 0 {
      var init := rs[..|rs| - 1];
      DependentsExactly(init, ns, req);
      assert rs == init + [rs[|rs| - 1]];
      if exists h :: h in rs && h.targetNamespace == ns && h.name == req.name {
        var h :| h in rs && h.targetNamespace == ns && h.name == req.name;
        if h != rs[|rs| - 1] {
          assert h in init;
        }
      }
    }
  }

  /** The defect of the fan-out as written: HelmReleases are namespaced, but the request
      carries no namespace, so when every release lives in a named namespace the enqueued
      step finds nothing and does nothing. */
  lemma FanOutReachesNoNamespacedRelease(c: Cluster, render: Renderer, obj: Namespace, req: Request)
    requires req in MapNamespaceToHelmReleases(c, obj)
    requires forall h :: h in c.releases ==> h.namespace != ""
    requires GetHelmRelease("", req.name) !in c.faults
    ensures Reconcile(c, render, req) == Reconciled(c, None, None)
  {
    DependentsExactly(c.releases, obj.name, req);
  }

  /** The fan-out as evidently intended: each release is enqueued with its namespace. */
  function DependentsFixed(rs: seq<HelmRelease>, ns: string): seq<Request>
    decreases |rs|
  {
    if |rs| == 0 then []
    else
      var last := rs[|rs| - 1];
      DependentsFixed(rs[..|rs| - 1], ns)
        + (if last.targetNamespace == ns then [Request(last.namespace, last.name)] else [])
  }

  /** The two fan-outs enqueue the same releases in the same order; the one as written
      only drops each release's namespace from the request. */
  lemma {:induction false} FanOutErasesNamespace(rs: seq<HelmRelease>, ns: string)
    ensures |Dependents(rs, ns)| == |DependentsFixed(rs, ns)|
    ensures forall i :: 0 <= i < |Dependents(rs, ns)| ==>
              Dependents(rs, ns)[i] == Request("", DependentsFixed(rs, ns)[i].name)
    decreases |rs|
  {
    if |rs| > 0 {
      FanOutErasesNamespace(rs[..|rs| - 1], ns);
    }
  }

  function MapNamespaceToHelmReleasesFixed(c: Cluster, obj: Namespace): (reqs: seq<Request>)
    ensures ListHelmReleases in c.faults ==> reqs == []
  {
    match ListHelmReleaseObjs(c)
    case Err(_) => []
    case Ok(rs) => DependentsFixed(rs, obj.name)
  }

  /** Release identities are unique within the list, as in the API server. */
  predicate UniqueReleases(rs: seq<HelmRelease>) {
    forall i, j :: 0 <= i < j < |rs| ==> rs[i].namespace != rs[j].namespace || rs[i].name != rs[j].name
  }

  lemma {:induction false} DependentsFixedExactly(rs: seq<HelmRelease>, ns: string, req: Request)
    ensures req in DependentsFixed(rs, ns) <==>
              exists h :: h in rs && h.targetNamespace == ns && h.namespace == req.namespace && h.name == req.name
    decreases |rs|
  {
    if |rs| > 0 {
      var init := rs[..|rs| - 1];
      DependentsFixedExactly(init, ns, req);
      assert rs == init + [rs[|rs| - 1]];
      if exists h :: h in rs && h.targetNamespace == ns && h.namespace == req.namespace && h.name == req.name {
        var h :| h in rs && h.targetNamespace == ns && h.namespace == req.namespace && h.name == req.name;
        if h != rs[|rs| - 1] {
          assert h in init;
        }
      }
    }
  }

  lemma {:induction false} FindUnique(rs: seq<HelmRelease>, hr: HelmRelease)
    requires UniqueReleases(rs) && hr in rs
    ensures FindHelmRelease(rs, hr.namespace, hr.name) == Some(hr)
    decreases |rs|
  {
    if rs[0] != hr {
      assert UniqueReleases(rs[1..]) by {
        forall i, j | 0 <= i < j < |rs[1..]|
          ensures rs[1..][i].namespace != rs[1..][j].namespace || rs[1..][i].name != rs[1..][j].name
        {
          assert rs[1..][i] == rs[i + 1] && rs[1..][j] == rs[j + 1];
        }
      }
      FindUnique(rs[1..], hr);
      var k :| 0 <= k < |rs| && rs[k] == hr;
      assert k > 0;
    }
  }

  /** The corrected fan-out enqueues every release targeting the namespace under a key
      that finds exactly that release. */
  lemma FixedFanOutReachesEveryRelease(c: Cluster, obj: Namespace, hr: HelmRelease)
    requires hr in c.releases && hr.targetNamespace == obj.name
    requires UniqueReleases(c.releases)
    requires ListHelmReleases !in c.faults && GetHelmRelease(hr.namespace, hr.name) !in c.faults
    ensures Request(hr.namespace, hr.name) in MapNamespaceToHelmReleasesFixed(c, obj)
    ensures GetHelmReleaseObj(c, Request(hr.namespace, hr.name)) == Ok(hr)
  {
    DependentsFixedExactly(c.releases, obj.name, Request(hr.namespace, hr.name));
    FindUnique(c.releases, hr);
  }
}

=== FILE: kube.dfy ===
/** The slice of the Kubernetes API the reconcilers use, as an immutable cluster state.
    `Get`, `List`, `Create` and controller-runtime's `CreateOrPatch` become pure functions
    over that state. A call listed in `faults` fails with the recorded error, which is how
    the model reaches every error branch of the reconcilers. */
module Kube {
  import opened Basics

  /** Namespace annotations: a missing key reads as the empty string, as in Go. */
  type Annotations = map<string, string>

  /** A Namespace as seen by a watch predicate or map function. */
  datatype Namespace = Namespace(name: string, annotations: Annotations)

  /** A cluster-scoped `ui.k8s.appscode.com` Feature: `Spec.FeatureSet` and `Spec.Chart.Namespace`. */
  datatype Feature = Feature(name: string, featureSet: string, chartNamespace: string)

  /** A namespaced Flux HelmRelease with its `Spec.TargetNamespace`. */
  datatype HelmRelease = HelmRelease(namespace: string, name: string, targetNamespace: string)

  /** A ConfigMap; `data == None` is Go's nil `Data` map. */
  datatype ConfigMap = ConfigMap(data: Option<map<string, string>>)

  /** An open-cluster-management ClusterClaim; only `Spec.Value` is modelled. */
  datatype ClusterClaim = ClusterClaim(value: string)

  /** A work-queue key (`reconcile.Request`); cluster-scoped objects use namespace "". */
  datatype Request = Request(namespace: string, name: string)

  /** A failure an API call can be made to report. NotFound is not among them: a read
      reports NotFound exactly when the object is absent. `Invalid` is the API server's
      refusal of an object that fails validation, such as one without a name. */
  datatype Failure = AlreadyExists | Conflict | Unavailable | Invalid

  /** What an API call returns instead of a result. */
  datatype ApiError = NotFound | Failed(failure: Failure)

  /** The API calls whose failure the reconcilers observe. */
  datatype Call =
    | GetNamespace(name: string)
    | CreateNamespace(name: string)
    | GetFeature(name: string)
    | ListFeatures
    | GetHelmRelease(namespace: string, name: string)
    | ListHelmReleases
    | GetConfigMap
    | WriteConfigMap
    | GetClaim
    | WriteClaim

  /** Everything the reconcilers can read or write. A call listed in `faults` reports the
      recorded failure. `sccConfig` is the one ConfigMap
      `kubeops/ace-openshift-scc`; `claim` is the one ClusterClaim `openshift.ace.info`. */
  datatype Cluster = Cluster(
    namespaces: map<string, Annotations>,
    features: seq<Feature>,
    releases: seq<HelmRelease>,
    sccConfig: Option<ConfigMap>,
    claim: Option<ClusterClaim>,
    faults: map<Call, Failure>)

  /** The error an injected fault makes `call` return, if any. */
  function Fault(c: Cluster, call: Call): Option<ApiError> {
    if call in c.faults then Some(Failed(c.faults[call])) else None
  }

  function GetNamespaceObj(c: Cluster, name: string): (r: Result<Namespace, ApiError>)
    ensures r.Ok? ==> r.value.name == name
    ensures Fault(c, GetNamespace(name)) == None ==> (r.Ok? <==> name in c.namespaces)
    ensures r == Err(NotFound) <==> GetNamespace(name) !in c.faults && name !in c.namespaces
  {
    if GetNamespace(name) in c.faults then Err(Failed(c.faults[GetNamespace(name)]))
    else if name in c.namespaces then Ok(Namespace(name, c.namespaces[name]))
    else Err(NotFound)
  }

  /** Creates an unannotated namespace; `Invalid` if the name is empty, since the API
      server requires one, and `AlreadyExists` if the name is taken. */
  function CreateNamespaceObj(c: Cluster, name: string): (r: Result<Cluster, ApiError>)
    ensures r.Ok? ==> r.value == c.(namespaces := c.namespaces[name := map[]])
    ensures r.Ok? ==> name != "" && name !in c.namespaces
    ensures name == "" ==> r == Err(Failed(Invalid))
    ensures name != "" && CreateNamespace(name) !in c.faults && name !in c.namespaces ==> r.Ok?
  {
    if name == "" then Err(Failed(Invalid))
    else if CreateNamespace(name) in c.faults then Err(Failed(c.faults[CreateNamespace(name)]))
    else if name in c.namespaces then Err(Failed(AlreadyExists))
    else Ok(c.(namespaces := c.namespaces[name := map[]]))
  }

  /** The first Feature of the list with the given name. */
  function FindFeature(fs: seq<Feature>, name: string): (r: Option<Feature>)
    ensures r.Some? ==> r.value in fs && r.value.name == name
    ensures r.None? <==> forall f :: f in fs ==> f.name != name
  {
    if |fs| == 0 then None
    else if fs[0].name == name then Some(fs[0])
    else FindFeature(fs[1..], name)
  }

  function GetFeatureObj(c: Cluster, name: string): (r: Result<Feature, ApiError>)
    ensures r.Ok? ==> r.value.name == name && r.value in c.features
  {
    if GetFeature(name) in c.faults then Err(Failed(c.faults[GetFeature(name)]))
    else match FindFeature(c.features, name)
      case Some(f) => Ok(f)
      case None => Err(NotFound)
  }

  function ListFeatureObjs(c: Cluster): (r: Result<seq<Feature>, ApiError>)
    ensures r.Ok? ==> r.value == c.features
  {
    if ListFeatures in c.faults then Err(Failed(c.faults[ListFeatures])) else Ok(c.features)
  }

  /** The first HelmRelease of the list with the given namespace and name. */
  function FindHelmRelease(rs: seq<HelmRelease>, namespace: string, name: string): (r: Option<HelmRelease>)
    ensures r.Some? ==> r.value in rs && r.value.namespace == namespace && r.value.name == name
    ensures r.None? <==> forall h :: h in rs ==> h.namespace != namespace || h.name != name
  {
    if |rs| == 0 then None
    else if rs[0].namespace == namespace && rs[0].name == name then Some(rs[0])
    else FindHelmRelease(rs[1..], namespace, name)
  }

  function GetHelmReleaseObj(c: Cluster, req: Request): (r: Result<HelmRelease, ApiError>)
    ensures r.Ok? ==> r.value.namespace == req.namespace && r.value.name == req.name
  {
    if GetHelmRelease(req.namespace, req.name) in c.faults then
      Err(Failed(c.faults[GetHelmRelease(req.namespace, req.name)]))
    else match FindHelmRelease(c.releases, req.namespace, req.name)
      case Some(h) => Ok(h)
      case None => Err(NotFound)
  }

  function ListHelmReleaseObjs(c: Cluster): (r: Result<seq<HelmRelease>, ApiError>)
    ensures r.Ok? ==> r.value == c.releases
  {
    if ListHelmReleases in c.faults then Err(Failed(c.faults[ListHelmReleases])) else Ok(c.releases)
  }

  function ReadConfigMap(c: Cluster): (r: Result<ConfigMap, ApiError>)
    ensures r.Ok? ==> c.sccConfig == Some(r.value)
    ensures r == Err(NotFound) <==> GetConfigMap !in c.faults && c.sccConfig.None?
  {
    if GetConfigMap in c.faults then Err(Failed(c.faults[GetConfigMap]))
    else if c.sccConfig.Some? then Ok(c.sccConfig.value)
    else Err(NotFound)
  }

  function ReadClaim(c: Cluster): (r: Result<ClusterClaim, ApiError>)
    ensures r.Ok? ==> c.claim == Some(r.value)
    ensures r == Err(NotFound) <==> GetClaim !in c.faults && c.claim.None?
  {
    if GetClaim in c.faults then Err(Failed(c.faults[GetClaim]))
    else if c.claim.Some? then Ok(c.claim.value)
    else Err(NotFound)
  }

  /** controller-runtime's `OperationResult`; `OpNone` is `OperationResultNone`. */
  datatype OpResult = OpNone | OpCreated | OpUpdated

  /** What `CreateOrPatch` did: the object it stored, if it wrote one, and its result. */
  datatype Patched<T> = Patched(written: Option<T>, result: Result<OpResult, ApiError>)

  /** `controllerutil.CreateOrPatch` reduced to read, mutate, compare, write. A NotFound read
      creates `mutate(blank)`; any other read error is returned; an existing object is
      written back only if `mutate` changed it, so an unchanged object needs no write and
      cannot meet the write fault. */
  function CreateOrPatch<T(==)>(read: Result<T, ApiError>, blank: T, mutate: T -> T,
                                writeFault: Option<ApiError>): (p: Patched<T>)
    ensures p.written.Some? <==> p.result.Ok? && p.result.value != OpNone
    ensures p.written.Some? ==> p.written.value == mutate(if read.Ok? then read.value else blank)
    ensures p.result == Ok(OpNone) <==> read.Ok? && mutate(read.value) == read.value
    ensures p.result == Ok(OpCreated) <==> read == Err(NotFound) && writeFault.None?
    ensures p.result.Err? ==> (read.Err? && read.error != NotFound && p.result.error == read.error)
                              || (writeFault.Some? && p.result.error == writeFault.value)
  {
    match read
    case Err(NotFound) =>
      if writeFault.Some? then Patched(None, Err(writeFault.value))
      else Patched(Some(mutate(blank)), Ok(OpCreated))
    case Err(e) => Patched(None, Err(e))
    case Ok(cur) =>
      var next := mutate(cur);
      if next == cur then Patched(None, Ok(OpNone))
      else if writeFault.Some? then Patched(None, Err(writeFault.value))
      else Patched(Some(next), Ok(OpUpdated))
  }
}

=== FILE: namespace_controller.dfy ===
/** `NamespaceReconciler`: rebuilds the ClusterClaim `openshift.ace.info` as the map from
    every Feature's chart namespace to that namespace's start UID; plus its trigger
    predicate. The claim's YAML serialisation is a parameter of the model. */
module NamespaceController {
  import opened Basics
  import opened Kube
  import opened Tracker
  import opened Parse
  import opened ConfigStore

  /** `yaml.Marshal` of the aggregate map; `None` is a marshal error. */
  type Marshaller = map<string, int> -> Option<string>

  /** The distinct chart namespaces of a Feature list. */
  function ChartNamespaces(fs: seq<Feature>): set<string> {
    set f | f in fs :: f.chartNamespace
  }

  /** The aggregate the reconciler builds: every chart namespace mapped to its start UID
      (the sentinel -1 when unassigned or absent), or `None` if any lookup fails. */
  function UidMap(c: Cluster, fs: seq<Feature>): (r: Option<map<string, int>>)
    ensures r.Some? <==> forall f :: f in fs ==> GetUid(c, f.chartNamespace).err.None?
    ensures r.Some? ==> r.value.Keys == ChartNamespaces(fs)
    ensures r.Some? ==> forall f :: f in fs ==> r.value[f.chartNamespace] == GetUid(c, f.chartNamespace).start
  {
    if exists f :: f in fs && GetUid(c, f.chartNamespace).err.Some? then None
    else Some(map n | n in ChartNamespaces(fs) :: GetUid(c, n).start)
  }

  /** The aggregate reads only namespaces and faults, never the claim it writes. */
  lemma UidMapFramed(c: Cluster, c': Cluster, fs: seq<Feature>)
    requires c'.namespaces == c.namespaces && c'.faults == c.faults
    ensures UidMap(c', fs) == UidMap(c, fs)
  {
    forall n ensures GetUid(c', n) == GetUid(c, n) {
      assert GetNamespaceObj(c', n) == GetNamespaceObj(c, n);
    }
    if UidMap(c, fs).Some? {
      assert UidMap(c', fs).Some?;
      assert UidMap(c', fs).value == UidMap(c, fs).value;
    }
  }

  predicate NoDuplicates(s: seq<string>) {
    forall i, j :: 0 <= i < j < |s| ==> s[i] != s[j]
  }

  /** The loop of the source: walks the Feature list, consults `GetUid` the first time a
      chart namespace is seen, and stops at the first failure. It builds `UidMap`, and the
      namespaces it consults are distinct chart namespaces, all of them when it succeeds. */
  method CollectUids(c: Cluster, fs: seq<Feature>) returns (m: map<string, int>, consulted: seq<string>, ok: bool)
    ensures ok <==> UidMap(c, fs).Some?
    ensures ok ==> m == UidMap(c, fs).value
    ensures ok ==> m.Keys == ChartNamespaces(fs)
    ensures NoDuplicates(consulted)
    ensures forall i :: 0 <= i < |consulted| ==> consulted[i] in ChartNamespaces(fs)
    ensures ok ==> forall n :: n in ChartNamespaces(fs) ==> n in consulted
  {
    m := map[];
    consulted := [];
    var i := 0;
    while i < |fs|
      invariant 0 <= i <= |fs|
      invariant m.Keys == ChartNamespaces(fs[..i])
      invariant forall n :: n in m ==> m[n] == GetUid(c, n).start && GetUid(c, n).err.None?
      invariant NoDuplicates(consulted)
      invariant forall k :: 0 <= k < |consulted| ==> consulted[k] in m
      invariant forall n :: n in m ==> n in consulted
    {
      assert fs[..i + 1] == fs[..i] + [fs[i]];
      var ns := fs[i].chartNamespace;
      if ns !in m {
        var uid := GetUid(c, ns);
        consulted := consulted + [ns];
        if uid.err.Some? {
          ok := false;
          assert fs[i] in fs;
          return;
        }
        m := m[ns := uid.start];
      }
      i := i + 1;
    }
    assert fs[..i] == fs;
    ok := true;
  }

  /** Writes the claim value through `CreateOrPatch`, replacing whatever it held. */
  function WriteClaimValue(c: Cluster, data: string): (r: Reconciled)
    ensures r.err.None? <==> r.op.Some?
    ensures r.err.Some? ==> r.cluster == c && r.err.value.Api?
    ensures r.cluster == c.(claim := r.cluster.claim)
    ensures r.op.Some? ==> r.cluster.claim == Some(ClusterClaim(data))
    ensures GetClaim in c.faults ==> r == Reconciled(c, Some(Api(Failed(c.faults[GetClaim]))), None)
    ensures GetClaim !in c.faults && WriteClaim in c.faults && c.claim != Some(ClusterClaim(data)) ==>
              r == Reconciled(c, Some(Api(Failed(c.faults[WriteClaim]))), None)
    ensures GetClaim !in c.faults && WriteClaim !in c.faults ==> r.err.None?
  {
    var p := CreateOrPatch(ReadClaim(c), ClusterClaim(""), _ => ClusterClaim(data), Fault(c, WriteClaim));
    match p.result
    case Err(e) => Reconciled(c, Some(Api(e)), None)
    case Ok(op) => Reconciled(c.(claim := if p.written.Some? then p.written else c.claim), None, Some(op))
  }

  /** One `Reconcile` call for the namespace named by `req`. Only the claim can change; the
      only errors returned are a failed namespace read and a failed claim write; a written
      claim holds exactly the serialisation of the freshly built map. */
  function Reconcile(c: Cluster, marshal: Marshaller, req: Request): (r: Reconciled)
    ensures r.cluster == c.(claim := r.cluster.claim)
    ensures r.err.Some? ==> r.cluster == c && r.err.value.Api? && r.err.value.api.Failed?
    ensures r.op.Some? ==> UidMap(c, c.features).Some? && marshal(UidMap(c, c.features).value).Some?
    ensures r.op.Some? ==> r.cluster.claim == Some(ClusterClaim(marshal(UidMap(c, c.features).value).value))
    ensures r.op.None? ==> r.cluster == c
  {
    match GetNamespaceObj(c, req.name)
    case Err(e) => Reconciled(c, IgnoreNotFound(e), None)
    case Ok(ns) =>
      if KeyUid !in ns.annotations then Reconciled(c, None, None)
      else match ListFeatureObjs(c)
        case Err(_) => Reconciled(c, None, None)
        case Ok(fs) =>
          match UidMap(c, fs)
          case None => Reconciled(c, None, None)
          case Some(m) =>
            match marshal(m)
            case None => Reconciled(c, None, None)
            case Some(data) => WriteClaimValue(c, data)
  }

  /** An annotated namespace whose Feature list, range lookups, marshalling and claim
      calls all succeed gets the claim written with the serialised map. */
  lemma WritesClaim(c: Cluster, marshal: Marshaller, req: Request)
    requires GetNamespace(req.name) !in c.faults && req.name in c.namespaces
    requires KeyUid in c.namespaces[req.name]
    requires ListFeatures !in c.faults && GetClaim !in c.faults && WriteClaim !in c.faults
    requires UidMap(c, c.features).Some? && marshal(UidMap(c, c.features).value).Some?
    ensures var r := Reconcile(c, marshal, req);
            r.err.None? && r.op.Some?
            && r.cluster.claim == Some(ClusterClaim(marshal(UidMap(c, c.features).value).value))
  {
  }

  /** A namespace read that fails other than NotFound is returned, with nothing written. */
  lemma NamespaceReadFailureReturned(c: Cluster, marshal: Marshaller, req: Request)
    requires GetNamespace(req.name) in c.faults
    ensures Reconcile(c, marshal, req)
              == Reconciled(c, Some(Api(Failed(c.faults[GetNamespace(req.name)]))), None)
  {
  }

  /** Once the map is built and marshalled, the step is the claim write, so a failed claim
      read or write is what the step returns. */
  lemma ClaimWriteIsTheStep(c: Cluster, marshal: Marshaller, req: Request)
    requires GetNamespace(req.name) !in c.faults && req.name in c.namespaces
    requires KeyUid in c.namespaces[req.name]
    requires ListFeatures !in c.faults
    requires UidMap(c, c.features).Some? && marshal(UidMap(c, c.features).value).Some?
    ensures Reconcile(c, marshal, req) == WriteClaimValue(c, marshal(UidMap(c, c.features).value).value)
  {
  }

  /** A missing namespace, or one without the uid-range annotation, leaves the claim alone
      without error. */
  lemma IgnoredNamespaces(c: Cluster, marshal: Marshaller, req: Request)
    ensures GetNamespace(req.name) !in c.faults && req.name !in c.namespaces ==>
              Reconcile(c, marshal, req) == Reconciled(c, None, None)
    ensures GetNamespace(req.name) !in c.faults && req.name in c.namespaces && KeyUid !in c.namespaces[req.name] ==>
              Reconcile(c, marshal, req) == Reconciled(c, None, None)
  {
  }

  /** A failed Feature list, a failed `GetUid` or a marshal error is swallowed: no error,
      and the claim is not written. */
  lemma SwallowedFailures(c: Cluster, marshal: Marshaller, req: Request)
    requires GetNamespace(req.name) !in c.faults && req.name in c.namespaces && KeyUid in c.namespaces[req.name]
    ensures ListFeatures in c.faults ==> Reconcile(c, marshal, req) == Reconciled(c, None, None)
    ensures (exists f :: f in c.features && GetUid(c, f.chartNamespace).err.Some?) ==>
              Reconcile(c, marshal, req) == Reconciled(c, None, None)
    ensures UidMap(c, c.features).Some? && marshal(UidMap(c, c.features).value).None? ==>
              Reconcile(c, marshal, req) == Reconciled(c, None, None)
  {
  }

  /** The claim is overwritten in full: whatever it held before, a successful step leaves
      the same value behind. */
  lemma PreviousClaimDoesNotSurvive(c: Cluster, marshal: Marshaller, req: Request, previous: Option<ClusterClaim>)
    requires Reconcile(c, marshal, req).op.Some?
    requires Reconcile(c.(claim := previous), marshal, req).op.Some?
    ensures Reconcile(c.(claim := previous), marshal, req).cluster == Reconcile(c, marshal, req).cluster
  {
    UidMapFramed(c, c.(claim := previous), c.features);
  }

  /** A chart namespace that does not exist, or carries neither identity annotation, is
      recorded with the sentinel -1 rather than left out. */
  lemma UnassignedRecordedAsSentinel(c: Cluster, fs: seq<Feature>, n: string)
    requires UidMap(c, fs).Some? && n in ChartNamespaces(fs)
    requires GetNamespace(n) !in c.faults
    requires n !in c.namespaces || (KeyUid !in c.namespaces[n] && KeyFsGroup !in c.namespaces[n])
    ensures n in UidMap(c, fs).value && UidMap(c, fs).value[n] == UidNone
  {
  }

  /** Three Features charted into `ns1`, `ns2` and `ns1` again give the two-entry map
      `{ns1: 100, ns2: 200}`: the repeated namespace appears once. */
  lemma RepeatedNamespaceCollapses(c: Cluster)
    requires c.faults == map[]
    requires c.namespaces == map[
      "ns1" := map[KeyUid := "100/5", KeyFsGroup := "100/5"],
      "ns2" := map[KeyUid := "200/5", KeyFsGroup := "200/5"]]
    requires c.features == [Feature("a", "opscenter", "ns1"), Feature("b", "opscenter", "ns2"),
                            Feature("c", "opscenter", "ns1")]
    ensures UidMap(c, c.features) == Some(map["ns1" := 100, "ns2" := 200])
  {
    ScenarioUids(c);
    CollapsesRepeats(c, c.features, "ns1", "ns2");
  }

  /** Features charted into `n1`, `n2`, `n1` give a map with exactly those two keys. */
  lemma CollapsesRepeats(c: Cluster, fs: seq<Feature>, n1: string, n2: string)
    requires n1 != n2
    requires |fs| == 3 && fs[0].chartNamespace == n1 && fs[1].chartNamespace == n2 && fs[2].chartNamespace == n1
    requires GetUid(c, n1).err.None? && GetUid(c, n2).err.None?
    ensures UidMap(c, fs) == Some(map[n1 := GetUid(c, n1).start, n2 := GetUid(c, n2).start])
  {
    ChartNamespacesOfThree(fs);
    assert forall f :: f in fs ==> f.chartNamespace == n1 || f.chartNamespace == n2 by {
      forall f | f in fs ensures f.chartNamespace == n1 || f.chartNamespace == n2 {
        var k :| 0 <= k < 3 && fs[k] == f;
      }
    }
    var m := UidMap(c, fs).value;
    var expected := map[n1 := GetUid(c, n1).start, n2 := GetUid(c, n2).start];
    assert fs[0] in fs && fs[1] in fs;
    assert m.Keys == expected.Keys;
    assert m == expected;
  }

  lemma ScenarioUids(c: Cluster)
    requires c.faults == map[]
    requires c.namespaces == map[
      "ns1" := map[KeyUid := "100/5", KeyFsGroup := "100/5"],
      "ns2" := map[KeyUid := "200/5", KeyFsGroup := "200/5"]]
    ensures GetUid(c, "ns1") == UidResult(100, 5, None)
    ensures GetUid(c, "ns2") == UidResult(200, 5, None)
  {
    ScenarioRanges();
    assert KeyUid != KeyFsGroup;
    var a1 := c.namespaces["ns1"];
    var a2 := c.namespaces["ns2"];
    assert a1[KeyUid] == a1[KeyFsGroup] == "100/5";
    assert a2[KeyUid] == a2[KeyFsGroup] == "200/5";
    FormattedRangeResolves(a1, 100, 5);
    FormattedRangeResolves(a2, 200, 5);
    assert GetNamespaceObj(c, "ns1") == Ok(Namespace("ns1", a1));
    assert GetNamespaceObj(c, "ns2") == Ok(Namespace("ns2", a2));
  }

  lemma ChartNamespacesOfThree(fs: seq<Feature>)
    requires |fs| == 3
    ensures ChartNamespaces(fs) == {fs[0].chartNamespace, fs[1].chartNamespace, fs[2].chartNamespace}
  {
    forall n | n in ChartNamespaces(fs)
      ensures n in {fs[0].chartNamespace, fs[1].chartNamespace, fs[2].chartNamespace}
    {
      var f :| f in fs && f.chartNamespace == n;
    }
    assert fs[0] in fs && fs[1] in fs && fs[2] in fs;
  }

  /** The decimal texts of the scenario's annotations. */
  lemma ScenarioRanges()
    ensures FormatInt(100) + "/" + FormatInt(5) == "100/5"
    ensures FormatInt(200) + "/" + FormatInt(5) == "200/5"
  {
    assert FormatNat(5) == "5";
    assert FormatNat(10) == "10" by {
      assert FormatNat(1) == "1";
    }
    assert FormatNat(100) == "100";
    assert FormatNat(20) == "20" by {
      assert FormatNat(2) == "2";
    }
    assert FormatNat(200) == "200";
  }

  /** Reconciling again on the resulting state changes nothing, and a second step after
      a successful one reports `OpNone`. */
  lemma Idempotent(c: Cluster, marshal: Marshaller, req: Request)
    ensures var r1 := Reconcile(c, marshal, req);
            Reconcile(r1.cluster, marshal, req).cluster == r1.cluster
    ensures var r1 := Reconcile(c, marshal, req);
            r1.op.Some? ==> Reconcile(r1.cluster, marshal, req).op == Some(OpNone)
  {
    var c' := Reconcile(c, marshal, req).cluster;
    UidMapFramed(c, c', c.features);
    assert GetNamespaceObj(c', req.name) == GetNamespaceObj(c, req.name);
  }

  /** Whether some Feature of the list is charted into the namespace. */
  function AnyTargets(fs: seq<Feature>, name: string): bool
    decreases |fs|
  {
    |fs| > 0 && (fs[0].chartNamespace == name || AnyTargets(fs[1..], name))
  }

  /** The controller's own trigger predicate on Namespace events. */
  predicate TriggerAdmits(c: Cluster, obj: Namespace): (b: bool)
    ensures b ==> KeyUid in obj.annotations && ListFeatures !in c.faults && |c.features| > 0
  {
    KeyUid in obj.annotations
    && match ListFeatureObjs(c)
       case Err(_) => false
       case Ok(fs) => AnyTargets(fs, obj.name)
  }

  lemma {:induction false} AnyTargetsExactly(fs: seq<Feature>, name: string)
    ensures AnyTargets(fs, name) <==> exists f :: f in fs && f.chartNamespace == name
    decreases |fs|
  {
    if |fs| > 0 {
      AnyTargetsExactly(fs[1..], name);
      if exists f :: f in fs && f.chartNamespace == name {
        var f :| f in fs && f.chartNamespace == name;
        if f != fs[0] {
          assert f in fs[1..];
        }
      }
    }
  }

  /** The trigger fires exactly for an annotated namespace some listed Feature targets,
      and never when the Feature list fails. */
  lemma TriggerExactly(c: Cluster, obj: Namespace)
    ensures TriggerAdmits(c, obj) <==>
              KeyUid in obj.annotations && ListFeatures !in c.faults
              && exists f :: f in c.features && f.chartNamespace == obj.name
  {
    AnyTargetsExactly(c.features, obj.name);
  }
}

=== FILE: parse.dfy ===
/** The two pieces of Go's standard library the identity-range resolver leans on:
    `strconv.ParseInt(s, 10, 64)` and `strings.Cut(s, "/")`. */
module Parse {
  import opened Basics

  const Int64Min: int := -0x8000_0000_0000_0000
  const Int64Max: int := 0x7FFF_FFFF_FFFF_FFFF

  predicate InInt64(v: int) {
    Int64Min <= v <= Int64Max
  }

  predicate IsDigit(ch: char) {
    '0' <= ch <= '9'
  }

  predicate AllDigits(s: string) {
    forall i :: 0 <= i < |s| ==> IsDigit(s[i])
  }

  function DigitValue(ch: char): nat
    requires IsDigit(ch)
  {
    ch as int - '0' as int
  }

  function DigitChar(d: nat): (ch: char)
    requires d < 10
    ensures IsDigit(ch) && DigitValue(ch) == d
  {
    ('0' as int + d) as char
  }

  /** The value of a string of decimal digits, most significant first. */
  function DigitsValue(s: string): nat
    requires AllDigits(s)
    decreases |s|
  {
    if |s| == 0 then 0 else 10 * DigitsValue(s[..|s| - 1]) + DigitValue(s[|s| - 1])
  }

  /** `strconv.ParseInt(s, 10, 64)`: an optional `+` or `-`, then at least one decimal
      digit and nothing else, whose value lies in the int64 range. With an explicit base
      of 10 Go accepts no `0x` prefix and no underscores. */
  function ParseInt(s: string): (r: Option<int>)
    ensures r.Some? ==> InInt64(r.value)
    ensures r.Some? ==> |s| > 0 && (IsDigit(s[0]) || s[0] == '-' || s[0] == '+')
    ensures r.Some? ==> AllDigits(s[1..])
  {
    if |s| == 0 then None
    else
      var body := if s[0] == '-' || s[0] == '+' then s[1..] else s;
      if |body| == 0 || !AllDigits(body) then None
      else
        var v: int := if s[0] == '-' then -(DigitsValue(body) as int) else DigitsValue(body);
        if InInt64(v) then Some(v) else None
  }

  /** The optional sign `ParseInt` accepts in front of the digits. */
  predicate IsSign(sign: string) {
    sign == "" || sign == "+" || sign == "-"
  }

  /** The value a sign and a digit string denote, before the range check. */
  function SignedValue(sign: string, d: string): int
    requires AllDigits(d)
  {
    if sign == "-" then -(DigitsValue(d) as int) else DigitsValue(d) as int
  }

  /** Every sign followed by one or more digits is accepted exactly when its value is an
      int64, and then parses to that value: leading zeros, `+` and `-0` included. */
  lemma ParseSignedDigits(sign: string, d: string)
    requires IsSign(sign) && |d| > 0 && AllDigits(d)
    ensures ParseInt(sign + d) == (if InInt64(SignedValue(sign, d)) then Some(SignedValue(sign, d)) else None)
  {
    if sign == "" {
      assert sign + d == d;
    } else {
      assert (sign + d)[0] == sign[0];
      assert (sign + d)[1..] == d;
    }
  }

  /** Conversely, every text `ParseInt` accepts is a sign followed by one or more digits,
      and parses to the value they denote. */
  lemma ParsedIsSignedDigits(s: string)
    requires ParseInt(s).Some?
    ensures var n := if s[0] == '-' || s[0] == '+' then 1 else 0;
            IsSign(s[..n]) && |s[n..]| > 0 && AllDigits(s[n..]) && s == s[..n] + s[n..]
            && ParseInt(s) == Some(SignedValue(s[..n], s[n..]))
  {
    var n := if s[0] == '-' || s[0] == '+' then 1 else 0;
    if n == 1 {
      assert s[..n] == [s[0]];
    } else {
      assert s[..n] == "" && s[n..] == s;
    }
  }

  /** Decimal rendering of a natural number, without leading zeros. */
  function FormatNat(n: nat): (s: string)
    ensures |s| > 0 && AllDigits(s)
    decreases n
  {
    if n < 10 then [DigitChar(n)] else FormatNat(n / 10) + [DigitChar(n % 10)]
  }

  /** Decimal rendering of an integer, `-` first when negative (`strconv.FormatInt(v, 10)`). */
  function FormatInt(v: int): (s: string)
    ensures |s| > 0
    ensures v >= 0 <==> IsDigit(s[0])
    ensures '/' !in s
  {
    if v < 0 then "-" + FormatNat(-v) else FormatNat(v)
  }

  lemma {:induction false} DigitsValueOfFormatNat(n: nat)
    ensures DigitsValue(FormatNat(n)) == n
    decreases n
  {
    if n >= 10 {
      var s := FormatNat(n);
      DigitsValueOfFormatNat(n / 10);
      assert s[..|s| - 1] == FormatNat(n / 10);
    }
  }

  /** Parsing inverts formatting on the whole int64 range. */
  lemma ParseFormatRoundTrip(v: int)
    requires InInt64(v)
    ensures ParseInt(FormatInt(v)) == Some(v)
  {
    var s := FormatInt(v);
    if v < 0 {
      assert s[1..] == FormatNat(-v);
      DigitsValueOfFormatNat(-v);
    } else {
      DigitsValueOfFormatNat(v);
    }
  }

  /** A decimal rendering of a value outside the int64 range is refused, never wrapped. */
  lemma ParseRejectsOutOfRange(v: int)
    requires !InInt64(v)
    ensures ParseInt(FormatInt(v)) == None
  {
    var s := FormatInt(v);
    if v < 0 {
      assert s[1..] == FormatNat(-v);
      DigitsValueOfFormatNat(-v);
    } else {
      DigitsValueOfFormatNat(v);
    }
  }

  /** `strings.Cut(s, sep)` for a one-character separator: the text before and after the
      FIRST occurrence of `sep`, and whether there was one. Without one it yields `(s, "", false)`. */
  function Cut(s: string, sep: char): (r: (string, string, bool))
    ensures r.2 <==> sep in s
    ensures r.2 ==> s == r.0 + [sep] + r.1 && sep !in r.0
    ensures !r.2 ==> r.0 == s && r.1 == ""
    decreases |s|
  {
    if |s| == 0 then ("", "", false)
    else if s[0] == sep then ("", s[1..], true)
    else
      var rest := Cut(s[1..], sep);
      if rest.2 then ([s[0]] + rest.0, rest.1, true) else (s, "", false)
  }

  /** The split `Cut` reports is the only one at a first occurrence of `sep`. */
  lemma {:induction false} CutAtFirst(before: string, sep: char, after: string)
    requires sep !in before
    ensures Cut(before + [sep] + after, sep) == (before, after, true)
    decreases |before|
  {
    var s := before + [sep] + after;
    if |before| == 0 {
      assert s == [sep] + after;
    } else {
      assert s[1..] == before[1..] + [sep] + after;
      CutAtFirst(before[1..], sep, after);
      assert [before[0]] + before[1..] == before;
    }
  }
}

=== FILE: tracker.dfy ===
/** The identity-range resolver (`tracker.GetUid`): reads a namespace's OpenShift SCC
    annotations and parses the `<start>/<range>` value they carry. */
module Tracker {
  import opened Basics
  import opened Parse
  import opened Kube

  const OpenShiftClusterClaim: string := "openshift.ace.info"
  const KeyUid: string := "openshift.io/sa.scc.uid-range"
  const KeyFsGroup: string := "openshift.io/sa.scc.supplemental-groups"
  const UidRange: int := 10000
  /** The "not yet assigned" sentinel, returned for both start and range. */
  const UidNone: int := -1

  /** Every error a reconcile step can report. */
  datatype Error =
    | Api(api: ApiError)
    | UidMismatch(uid: string, fsGroup: string)
    | NotStartRange
    | StartNotInteger
    | RangeNotInteger

  /** `GetUid`'s three results: start, range and error. */
  datatype UidResult = UidResult(start: int, size: int, err: Option<Error>)

  function Unassigned(err: Option<Error>): UidResult {
    UidResult(UidNone, UidNone, err)
  }

  /** `client.IgnoreNotFound`. */
  function IgnoreNotFound(e: ApiError): (r: Option<Error>)
    ensures r.None? <==> e == NotFound
    ensures r.Some? ==> r.value == Api(e)
  {
    if e == NotFound then None else Some(Api(e))
  }

  /** Go's map index: a missing annotation reads as "". */
  function Annotation(a: Annotations, key: string): string {
    if key in a then a[key] else ""
  }

  /** The annotation checks and the parse of `GetUid` once the namespace is in hand. */
  function ResolveRange(a: Annotations): (r: UidResult)
    ensures r.err.Some? ==> r.start == UidNone && r.size == UidNone
    ensures r.err.None? ==> InInt64(r.start) && InInt64(r.size)
    ensures r.err.None? && (KeyUid in a || KeyFsGroup in a) ==>
              KeyUid in a && KeyFsGroup in a && a[KeyUid] == a[KeyFsGroup]
  {
    if KeyUid !in a && KeyFsGroup !in a then Unassigned(None)
    else
      var uid := Annotation(a, KeyUid);
      var fsGroup := Annotation(a, KeyFsGroup);
      if uid != fsGroup then Unassigned(Some(UidMismatch(uid, fsGroup)))
      else
        var (startText, rangeText, found) := Cut(uid, '/');
        if !found then Unassigned(Some(NotStartRange))
        else match ParseInt(startText)
          case None => Unassigned(Some(StartNotInteger))
          case Some(start) =>
            match ParseInt(rangeText)
            case None => Unassigned(Some(RangeNotInteger))
            case Some(size) => UidResult(start, size, None)
  }

  /** `tracker.GetUid(kc, name)`. */
  function GetUid(c: Cluster, name: string): (r: UidResult)
    ensures r.err.Some? ==> r.start == UidNone && r.size == UidNone
    ensures r.err.Some? && r.err.value.Api? ==> r.err.value.api.Failed?
    ensures name !in c.namespaces && Fault(c, GetNamespace(name)) == None ==> r == Unassigned(None)
    ensures name in c.namespaces && Fault(c, GetNamespace(name)) == None ==> r == ResolveRange(c.namespaces[name])
  {
    match GetNamespaceObj(c, name)
    case Err(e) => Unassigned(IgnoreNotFound(e))
    case Ok(ns) => ResolveRange(ns.annotations)
  }

  /** A NotFound lookup is "unassigned" with no error; any other lookup error is returned,
      still with the sentinel range. */
  lemma LookupFailure(c: Cluster, name: string)
    ensures name !in c.namespaces && GetNamespace(name) !in c.faults ==> GetUid(c, name) == Unassigned(None)
    ensures GetNamespace(name) in c.faults ==>
              GetUid(c, name) == Unassigned(Some(Api(Failed(c.faults[GetNamespace(name)]))))
  {
  }

  /** With neither annotation the namespace is unassigned, without error. */
  lemma NoAnnotationsUnassigned(a: Annotations)
    requires KeyUid !in a && KeyFsGroup !in a
    ensures ResolveRange(a) == Unassigned(None)
  {
  }

  /** Two differing annotation values are an error carrying both texts; a missing
      annotation takes part in the comparison as "". */
  lemma MismatchIsError(a: Annotations)
    requires KeyUid in a || KeyFsGroup in a
    requires Annotation(a, KeyUid) != Annotation(a, KeyFsGroup)
    ensures ResolveRange(a) == Unassigned(Some(UidMismatch(Annotation(a, KeyUid), Annotation(a, KeyFsGroup))))
  {
  }

  /** A lone annotation never means "unassigned": it is a mismatch when its value is
      non-empty and a format error when it is empty. */
  lemma LoneAnnotationIsError(a: Annotations)
    requires (KeyUid in a) != (KeyFsGroup in a)
    ensures ResolveRange(a).err.Some?
    ensures ResolveRange(a).err.value.UidMismatch? || ResolveRange(a).err.value == NotStartRange
  {
    var (uid, fsGroup) := (Annotation(a, KeyUid), Annotation(a, KeyFsGroup));
    if uid == fsGroup {
      assert uid == "";
    }
  }

  /** A value without `/` is a format error. */
  lemma NoSlashIsFormatError(a: Annotations, v: string)
    requires KeyUid in a && KeyFsGroup in a && a[KeyUid] == v && a[KeyFsGroup] == v
    requires '/' !in v
    ensures ResolveRange(a) == Unassigned(Some(NotStartRange))
  {
  }

  /** On success the result is exactly the decimal parses of the text before and after
      the first `/`. */
  lemma SuccessIsParseOfFirstSplit(a: Annotations)
    requires KeyUid in a
    requires ResolveRange(a).err.None?
    ensures a[KeyUid] == a[KeyFsGroup]
    ensures '/' in a[KeyUid]
    ensures ParseInt(Cut(a[KeyUid], '/').0) == Some(ResolveRange(a).start)
    ensures ParseInt(Cut(a[KeyUid], '/').1) == Some(ResolveRange(a).size)
  {
  }

  /** Conversely, equal annotations whose text splits at a `/` into two parseable halves
      resolve to those parses, whatever their spelling: leading zeros and `+` included. */
  lemma ParsedHalvesResolve(a: Annotations, v: string)
    requires KeyUid in a && KeyFsGroup in a && a[KeyUid] == v && a[KeyFsGroup] == v
    requires Cut(v, '/').2
    requires ParseInt(Cut(v, '/').0).Some? && ParseInt(Cut(v, '/').1).Some?
    ensures ResolveRange(a)
              == UidResult(ParseInt(Cut(v, '/').0).value, ParseInt(Cut(v, '/').1).value, None)
  {
  }

  /** Every spelling `strconv.ParseInt` accepts works on both sides of the `/`: a signed
      digit string (leading zeros and `+` included) for start and size resolves to the
      values they denote when both are int64s. */
  lemma SignedDigitsResolve(a: Annotations, s1: string, d1: string, s2: string, d2: string)
    requires IsSign(s1) && |d1| > 0 && AllDigits(d1) && IsSign(s2) && |d2| > 0 && AllDigits(d2)
    requires InInt64(SignedValue(s1, d1)) && InInt64(SignedValue(s2, d2))
    requires KeyUid in a && KeyFsGroup in a
    requires a[KeyUid] == a[KeyFsGroup] == s1 + d1 + "/" + s2 + d2
    ensures ResolveRange(a) == UidResult(SignedValue(s1, d1), SignedValue(s2, d2), None)
  {
    var start, size := s1 + d1, s2 + d2;
    var v := s1 + d1 + "/" + s2 + d2;
    assert v == start + ['/'] + size;
    assert '/' !in start by {
      forall k | 0 <= k < |start| ensures start[k] != '/' {
        if k >= |s1| {
          assert start[k] == d1[k - |s1|];
        }
      }
    }
    CutAtFirst(start, '/', size);
    ParseSignedDigits(s1, d1);
    ParseSignedDigits(s2, d2);
    ParsedHalvesResolve(a, v);
  }

  /** Round trip: a namespace annotated with `<start>/<range>` in decimal on both keys
      resolves to exactly that pair. */
  lemma FormattedRangeResolves(a: Annotations, start: int, size: int)
    requires InInt64(start) && InInt64(size)
    requires KeyUid in a && KeyFsGroup in a
    requires a[KeyUid] == a[KeyFsGroup] == FormatInt(start) + "/" + FormatInt(size)
    ensures ResolveRange(a) == UidResult(start, size, None)
  {
    CutAtFirst(FormatInt(start), '/', FormatInt(size));
    ParseFormatRoundTrip(start);
    ParseFormatRoundTrip(size);
  }

  /** The split is at the first `/`: `"1/2/3"` leaves `"2/3"` as the range and fails. */
  lemma SplitsAtFirstSlash(a: Annotations)
    requires KeyUid in a && KeyFsGroup in a && a[KeyUid] == "1/2/3" && a[KeyFsGroup] == "1/2/3"
    ensures ResolveRange(a) == Unassigned(Some(RangeNotInteger))
  {
    assert "1/2/3" == "1" + ['/'] + "2/3";
    CutAtFirst("1", '/', "2/3");
    assert ParseInt("1") == Some(1) by {
      assert "1"[1..] == "";
    }
    assert ParseInt("2/3") == None by {
      assert !IsDigit("2/3"[1]);
    }
  }

  /** A parsed start of -1 is indistinguishable from the sentinel: `"-1/5"` succeeds with
      start `UidNone`. */
  lemma ParsedMinusOneLooksUnassigned(a: Annotations)
    requires KeyUid in a && KeyFsGroup in a && a[KeyUid] == "-1/5" && a[KeyFsGroup] == "-1/5"
    ensures ResolveRange(a) == UidResult(UidNone, 5, None)
  {
    assert FormatInt(-1) == "-1" by {
      assert FormatNat(1) == "1";
    }
    assert FormatInt(5) == "5";
    FormattedRangeResolves(a, -1, 5);
  }

  /** The Namespace watch predicate of the Feature and HelmRelease controllers: only
      namespaces carrying the uid-range annotation pass. */
  predicate WatchAdmits(obj: Namespace): (b: bool)
    ensures b <==> KeyUid in obj.annotations
  {
    KeyUid in obj.annotations
  }

  /** The predicate lets through every namespace that resolves to an assigned range, so
      no namespace a reconciler could use is filtered out. */
  lemma WatchAdmitsAssigned(obj: Namespace)
    requires ResolveRange(obj.annotations).err.None?
    requires ResolveRange(obj.annotations).start != UidNone
    ensures WatchAdmits(obj)
  {
    if KeyUid !in obj.annotations && KeyFsGroup in obj.annotations {
      LoneAnnotationIsError(obj.annotations);
    }
  }
}
